=== FILE: README.md ===
# Zitate-Bot quote attribution, modelled in Dafny

Zitate-Bot is a Discord bot that keeps a quotes ("Zitate") database for one
server. Every regular message that a non-bot author posts in the quotes
channel becomes a quote record. The message's author is linked to it by a `wrote` edge. A thread
named after the quote id is opened under the bot channel. In that thread,
members attribute the quote with `/gesagt <name>` (a `said` edge) or
`/assistiert <name>` (an `assisted` edge), and close the thread with
`/fertig`. `/stats <name>` and `/ranking <type>` are meant to report counts
per user in the bot channel; as written they panic there (see "## Findings").
Each percentage is taken against a process-wide quote counter
(`OVERALL_ZITATE_COUNT`, a `u16`). An operator console on standard input adds
and removes quotes, adds users and prints stats and rankings.

The model has six modules:

- `Wrappers`: the `Option` type.
- `Text`: the standard-library string behaviour the bot relies on:
  - `str::trim` and `str::split`;
  - decimal `{}` and `{:02}` formatting;
  - `parse::<u64>`;
  - string ordering.
- `Store`: the database as a value `Db(users, quotes, edges)`, with every
  write the bot makes as a pure transition:
  - `add_user`, `register_zitat`, `remove_zitat`;
  - the text update of `message_update`;
  - both `add_qa` variants;
  - the `fertig` gate and the startup count.
  
  Edges are a sequence, because every `RELATE` creates a new edge record.
- `Stats`: the read side:
  - `get_percentage`, `get_ranking`;
  - `get_user_stats` / `get_stats`;
  - `get_zitate`.
- `Dispatch`: the console tokenizer and command language, and the routing
  of `message`, `message_delete` and `interaction_create`.
- `Bot`: the running bot as the class `ZitateBot`. It holds the tables, the
  counter and the set of open attribution threads as fields. Each handler
  updates them in place, and its contract ties the new state to the `Store`
  transition of the old one.

Lookups by platform id or by name model SurrealDB's `take(0)` into an
`Option`. The result is:

- `Found` when exactly one row matches;
- `NotFound` when none does;
- `TooMany` (an error) when several do.

Where the bot's apparent intent and its code differ, the model follows
the code, with one exception: `Bot.ZitateBot.OnCommand` uses the corrected
interaction routing and the corrected `add_qa` of src/db/mod.rs:32-67. The
interaction handlers as written (src/main.rs:238 and 260,
src/event_handler/mod.rs:154 and 176) call the `add_qa` of src/main.rs:465,
which `Store.AddQaUnfixed` and `Bot.ZitateBot.AddQaUnfixed` model. Both
differences are listed under "## Findings". Otherwise:

- `remove_zitat` does not decrement the counter.
- With a counter of 0, a percentage prints `NaN` (or `inf`), not `0`.
- Registering a message id that is already stored keeps the old text. It
  still adds a second `wrote` edge and still bumps the counter, because
  `CREATE` on an existing record fails without an error being checked.

## Model

| member | source | states |
|---|---|---|
| Store.NewUser | src/db/mod.rs:14-22 | a new user has the given name, the single platform id, and the record id `user:<id>` whose key parses back to the id |
| Store.UserRecordIdInjective | src/db/user.rs:20-28 | different platform ids give different user record ids |
| Store.Matching | src/db/user.rs:38-52 | the rows a lookup query selects are exactly the users that match the identifier |
| Store.Get | src/db/user.rs:65-71 | `get` finds the unique matching user; `NotFound` iff no user matches; an error iff two or more match |
| Store.ByUid | src/main.rs:756-762 | lookup by platform id: a found user carries that id; `NotFound` iff no user carries it |
| Store.ByName | src/main.rs:764-770 | lookup by name: a found user has that name; `NotFound` iff no user has it |
| Store.Count | src/db/user.rs:82-101 | the `count(...)` aggregate never exceeds the number of edges |
| Store.CountAppend | src/db/mod.rs:69-91 | counting over a concatenation adds the counts of the parts |
| Store.CountPositive | src/event_handler/mod.rs:197-213 | a count is positive iff some edge fits the pattern |
| Store.BetweenFits | src/db/mod.rs:34-47 | the `zitat:id IN (user->kind.out)` test holds iff that edge exists |
| Store.AddUser | src/main.rs:725-732 | the id is then present; adding is a no-op when the record exists, else the new user is appended; quotes and edges are unchanged |
| Store.AddUserValid | src/db/user.rs:73-80 | adding a user keeps user record ids unique and every edge anchored at a user |
| Store.AddUserThenFound | src/main.rs:725-762 | after adding an unknown platform id, lookup by that id finds exactly the new user |
| Store.EnsureAuthor | src/main.rs:666-686 | a known author is reused; otherwise (none or a lookup error) the author is added and used |
| Store.CreateZitat | src/main.rs:687-690 | the quote id is stored, its text set only if it was new, other texts kept, and one `wrote` edge from the author appended |
| Store.RegisterFresh | src/main.rs:663-690 | registering a new message stores its text and adds exactly one `wrote` edge and no `said`/`assisted` edge into it, keeping the store valid |
| Store.RegisterValid | src/main.rs:663-690 | registering any message keeps the store valid |
| Store.EdgesNotInto | src/main.rs:609 | the kept edges are exactly those not pointing at the quote |
| Store.CountNotInto | src/main.rs:609 | after the cascade, counts into the quote are 0 and counts into other quotes are unchanged |
| Store.RemoveZitat | src/main.rs:599-609 | users are unchanged, the quote is removed, and an edge survives iff it does not point at the quote |
| Store.RemoveCascades | src/main.rs:609 | removal keeps the store valid, leaves no edge into the quote, lowers each kind's total by exactly its edges into the quote, and leaves other quotes untouched |
| Store.EditZitat | src/event_handler/mod.rs:65-100 | the text is replaced iff the quote exists and the new content differs; unchanged iff stored and new text agree (both absent counts); otherwise the handler panics with nothing changed |
| Store.EditLocalAndIdempotent | src/event_handler/mod.rs:82-98 | an edit touches only its own quote, and replaying the same edit changes nothing |
| Store.AddQa | src/db/mod.rs:32-67 | an existing edge of the requested kind gives the "already recorded" reply; an existing edge of the other kind gives the conflict reply; otherwise exactly one edge is appended and the success reply names the user |
| Store.AddQaKeepsExclusive | src/db/mod.rs:48-66 | no (user, quote) pair ever gets two edges of one kind, or both a `said` and an `assisted` edge |
| Store.SaidTwice | src/db/mod.rs:48-66 | attributing the same `said` twice records one edge; the second call only replies "already recorded" |
| Store.ConflictAfterRecorded | src/db/mod.rs:51-56 | after one kind is recorded, claiming the other kind for the same pair is refused with the matching conflict reply |
| Store.AddQaUnfixed | src/main.rs:465-510 | as written: both flags come from the `said` edges, so only a `said` edge blocks the new edge |
| Store.AddQaUnfixedBreaksExclusive | src/main.rs:476-485 | as written: with an `assisted` edge already present, a second `assisted` edge or an additional `said` edge is recorded; the corrected `add_qa` refuses both |
| Store.AddQaVariantsAgree | src/main.rs:465-510 | the two `add_qa` variants agree whenever no `assisted` edge exists and a `said` edge exists only for `said` claims |
| Store.MayClose | src/event_handler/mod.rs:197-213 | `fertig` may close the thread iff the quote record exists and some `said` edge points at it |
| Store.RecordedSaidOpensGate | src/event_handler/mod.rs:153-213 | once `/gesagt` has been recorded for a quote, `/fertig` may close its thread iff the quote is stored |
| Store.QuoteCountQuery | src/main.rs:341-346 | the grouped count query returns no row iff there are no quotes |
| Store.InitialCountIsQuoteCount | src/main.rs:341-350 | the counter starts at the number of stored quotes (0 when none) |
| Stats.Hundredths | src/main.rs:512-518 | the percentage in hundredths is `count*10000/total`, rounded half up |
| Stats.HundredthsMonotone | src/main.rs:512-518 | percentages grow with the count and stay at most 100% while count <= total |
| Stats.PercentTextExamples | src/main.rs:512-518 | 25 of 100 prints "25", 1 of 3 prints "33.33", 1 of 8 prints "12.5", and 0 of 0 prints "NaN" |
| Stats.NameOfIs | src/db/mod.rs:75 | `in.name` of an edge is the name of the user the edge starts at |
| Stats.KindNames | src/db/mod.rs:75 | the names selected from a kind's table are one per edge of that kind |
| Stats.OccPositive | src/db/mod.rs:75 | a name occurs in the selected names iff it is among them |
| Stats.GroupIsGrouping | src/db/mod.rs:75 | `GROUP BY name`: distinct names, each with its number of occurrences, covering exactly the names present, summing to the edge count |
| Stats.GroupStepExisting | src/db/mod.rs:75 | one more edge for a name already grouped raises its row by one and keeps the grouping |
| Stats.GroupStepNew | src/db/mod.rs:75 | one more edge for a new name appends a row of count 1 and keeps the grouping |
| Stats.SortByCountFacts | src/db/mod.rs:75 | `ORDER BY count DESC` yields a non-increasing permutation of the groups |
| Stats.PermutationIsGrouping | src/db/mod.rs:75 | reordering a grouping keeps it a grouping |
| Stats.RankingCorrect | src/db/mod.rs:69-91 | the ranking is sorted by count descending, has one row per user name with its edge count, and its counts sum to the number of edges of the kind |
| Stats.RankingPercentagesOrdered | src/db/mod.rs:76-90 | a later ranking line never shows a larger percentage than an earlier one |
| Stats.RankingLineNumbered | src/db/mod.rs:76-90 | line i starts with the two-digit number i+1 followed by `.:` |
| Stats.AsU16 | src/db/user.rs:102-104 | the `as u16` cast lies below 65536 and keeps counts that fit |
| Stats.GetStats | src/db/user.rs:82-112 | each of said, wrote and assisted is the user's outgoing edge count of that kind, cast to `u16` |
| Stats.NoEdgesFromUnknown | src/db/user.rs:102-104 | for a user record that does not exist, the `unwrap_or(0)` value is the true count, 0 |
| Stats.AttributionCounted | src/main.rs:545-587 | a recorded attribution raises exactly that kind's stat of that user by one; the other stats are unchanged |
| Stats.StatsMatchRanking | src/db/mod.rs:69-132 | for a user with a unique name, the stats count equals the number of that name's entries in the ranking's input |
| Stats.SaidItems | src/db/user.rs:117 | one item per `said` edge of the user; an item is present iff some such edge points at its quote |
| Stats.Item | src/db/user.rs:117 | the item carries the quote text, and its `msg_id` string parses back to the quote id |
| Stats.SortByMsgIdFacts | src/db/user.rs:117 | `ORDER BY msg_id` yields a permutation ordered by the id string |
| Stats.GetZitateCorrect | src/db/user.rs:114-123 | the list is ordered by id string, has one entry per `said` edge, and holds exactly the user's said quotes |
| Text.TrimIdempotent | src/main.rs:369 | trimming twice is trimming once |
| Text.TrimPadded | src/main.rs:369 | whitespace around a string does not change its trim |
| Text.Split | src/main.rs:371 | splitting yields at least one piece |
| Text.SplitPiecesFree | src/main.rs:371 | no piece of a split holds the separator |
| Text.JoinSplit | src/main.rs:371 | joining the pieces with the separator rebuilds the input |
| Text.SplitJoin | src/main.rs:371 | splitting a join of separator-free pieces gives those pieces back |
| Text.ParseDecimal | src/main.rs:377 | a `u64` formatted in decimal parses back to itself |
| Text.DecimalInjective | src/main.rs:712-717 | different quote ids give different thread names |
| Text.Pad2Value | src/db/mod.rs:82 | `{:02}` keeps the value and pads only single digits |
| Text.LexLeTotal | src/db/user.rs:117 | any two id strings are ordered one way or the other |
| Text.LexLeAntisymmetric | src/db/user.rs:117 | id strings ordered both ways are equal |
| Dispatch.Tokens | src/main.rs:369-371 | there is at least one token, no token holds a space, and the tokens joined by spaces are the trimmed line |
| Dispatch.TokensOfWords | src/main.rs:369-371 | words without spaces, joined by single spaces and with no whitespace at the two ends, tokenize back to exactly those words |
| Dispatch.BlankLineIsUnknown | src/main.rs:369-448 | a blank line is one empty token and answers "Unknown command" |
| Dispatch.SurroundingWhitespaceIgnored | src/main.rs:369 | whitespace around a console line does not change its meaning |
| Dispatch.ZitatAddRoundTrip | src/main.rs:374-386 | `zitat add <id>` registers the message with that id |
| Dispatch.ZitatRemoveRoundTrip | src/main.rs:387-396 | `zitat remove <id>` removes the quote with that id |
| Dispatch.UserAddRoundTrip | src/main.rs:401-406 | `user add <name> <id>` adds that user, when the name has no space |
| Dispatch.UserRankingTypes | src/main.rs:416-431 | `user ranking said/wrote/assisted` selects that table; any other type answers "Unknown ranking type" |
| Dispatch.ZitatAlone | src/main.rs:398 | `zitat` alone answers "Missing subcommand" |
| Dispatch.UserAlone | src/main.rs:434 | `user` alone answers "Missing subcommand" |
| Dispatch.RankingTypeMissing | src/main.rs:426-429 | `user ranking` alone answers "Missing ranking type" |
| Dispatch.RouteMessage | src/event_handler/mod.rs:40-50 | bot and non-regular messages are ignored; only quotes-channel messages are registered; a regular human message outside the quotes channel goes to the DM handler iff its channel is private |
| Dispatch.RegisterExactlyInQuotesChannel | src/main.rs:124-134 | a message is registered iff it is a regular human message in the quotes channel |
| Dispatch.StatsInBotChannelCrashes | src/event_handler/mod.rs:105-133 | as written, `/stats` in the bot channel panics, because its name is parsed as a quote id; the intended routing answers it |
| Dispatch.BotChannelNameIsNotAnId | src/event_handler/mod.rs:113 | the bot channel's name `zitate-bot` is not a `u64` |
| Dispatch.RouteInteractionGuards | src/event_handler/mod.rs:114-214 | stats/ranking are answered only in the bot channel, and attribution/closing only in a thread under it; `/stats` is answered iff it is in the bot channel with an option; any other command gets no response |
| Dispatch.UnknownRankingOptionIgnored | src/event_handler/mod.rs:134-152 | a `/ranking` option other than said/wrote/assisted gets no response |
| Dispatch.ThreadNameRoundTrip | src/main.rs:704-718 | a thread named with a quote's decimal id routes its commands to that quote, under both routings |
| Dispatch.RoutingsAgreeInThreads | src/event_handler/mod.rs:102-214 | inside a thread with a numeric name the as-written and the intended routing agree |
| Bot.ZitateBot.constructor | src/main.rs:341-350 | the bot starts on the stored tables with the counter equal to the number of quotes |
| Bot.ZitateBot.AddUser | src/main.rs:725-732 | the tables become `Store.AddUser` of the old ones; counter and threads are unchanged |
| Bot.ZitateBot.RegisterZitat | src/main.rs:663-723 | the tables become `Store.Register` of the old ones; when the bot channel is a guild channel, the quote's thread opens and the counter steps by one (wrapping at 2^16); otherwise both stay |
| Bot.ZitateBot.StoreZitat | src/main.rs:663-690 | the tables become `Store.Register` of the old ones (author looked up, else added; then the quote and its `wrote` edge); counter and threads are unchanged |
| Bot.ZitateBot.EdgesKept | src/main.rs:609 | the scan keeps exactly the edges that do not point at the quote, in their order |
| Bot.ZitateBot.RemoveZitat | src/main.rs:599-633 | the tables become `Store.RemoveZitat` of the old ones (edge by edge); the thread closes; the call panics iff no thread was open; the counter is unchanged |
| Bot.ZitateBot.MessageUpdate | src/event_handler/mod.rs:65-100 | outside the quotes channel nothing changes; inside it the result is `Store.EditZitat` |
| Bot.ZitateBot.AddQa | src/db/mod.rs:32-67 | tables and reply are `Store.AddQa` of the old tables |
| Bot.ZitateBot.AddQaUnfixed | src/main.rs:465-510 | tables and reply are `Store.AddQaUnfixed` of the old tables |
| Bot.ZitateBot.Relate | src/db/mod.rs:48-66 | the four-way branch on the two flags, as a state change |
| Bot.ZitateBot.Fertig | src/event_handler/mod.rs:197-213 | the thread is deleted with no reply iff the quote is stored and a `said` edge points at it; otherwise the refusal is replied and the thread stays |
| Bot.ZitateBot.StatsFor | src/event_handler/mod.rs:116-133 | a stats text is produced iff the name finds exactly one user, and it is that user's `get_user_stats` text against the counter |
| Bot.ZitateBot.OnMessage | src/event_handler/mod.rs:40-50 | follows `RouteMessage`; a registered message changes the tables by `Store.Register`, and opens its thread and steps the counter (mod 2^16) iff the bot channel is a guild channel; anything else changes nothing |
| Bot.ZitateBot.OnDelete | src/event_handler/mod.rs:52-63 | a deletion in the quotes channel removes the quote and closes its thread, and panics iff no thread was open; elsewhere nothing changes; the counter never changes |
| Bot.ZitateBot.OnCommand | src/event_handler/mod.rs:102-223 | follows the intended routing: attribution applies `Store.AddQa` for the named user, and fails with nothing changed when the name finds no single user; `/fertig` closes the thread silently iff the gate opens, else replies the refusal; `/stats` replies the found user's stats text or fails; ranking replies the ranking text; a crash route fails; only attribution changes the tables and only `/fertig` changes the threads |
| Bot.ZitateBot.OnConsole | src/main.rs:368-451 | each parsed console action applies its store operation with its counter and thread effects; `zitat add` registers the fetched message under that message's own id; an unfetchable `zitat add` changes nothing; the call panics exactly on a missing or unparsable token, an unfetchable message, a remove without an open thread, or a name that matches several users; `user stats` prints the found user's stats or "User not found", `user ranking` prints the ranking, `exit` exits |

## Left out

- Discord transport is not modelled: the gateway, the cache, HTTP, replies and direct messages (`dm_handler`, `send_dm`). A fetched message, the channel kind and the private-channel test are parameters of the handlers.
- Thread creation and deletion calls are not modelled. The open threads are a set of quote ids; `delete_qa_thread` is removal from that set.
- SurrealDB is not modelled. The queries become functions over the `Db` value, and its transactions are taken to be atomic.
- The `time` field of `wrote` edges is left out, because nothing reads it back.
- Logging, the standard-input reading loop, the `exit` cleanup (`shutdown_clean`, log-file removal), and startup argument and presence handling are left out. They are I/O.
- `ready` and the slash-command registration of `create_commands.rs` are left out, because they only talk to the platform.
- Concurrency between handlers is not modelled. Each handler runs as one atomic step.
- Stats.Hundredths: models the `f32` percentage as exact integer hundredths rounded half up. `f32` rounding error in the last digit is not captured.
- Stats.PercentText: gives `NaN`/`inf` when the counter is 0, without modelling other `f32` Display corner cases.
- Stats.Ranking: the `u16` deserialisation error for a group count above 65535 is not modelled.
- Stats.Ranking: SurrealDB's order among rows with equal counts is unspecified. The model keeps first-occurrence order (a stable sort).
- Bot.ZitateBot.constructor: requires fewer than 65536 quotes. The `u16` deserialisation of a larger startup count panics, and that panic is not modelled.
- Bot.ZitateBot.RegisterZitat: the counter increment wraps at 2^16 (a release build). A debug build would panic instead.
- Bot.ZitateBot.Fertig: when the quote record does not exist, the count `FROM zitat:{id}` has no row to count. What SurrealDB then returns for the comparison, and whether the two `unwrap`s panic on it, is not modelled. The model replies the refusal and keeps the thread.
- Bot.ZitateBot.OnConsole: the `None` case of the first token cannot happen, because splitting always yields a token.
- Bot.ZitateBot.OnCommand: uses the intended routing and the corrected `add_qa`. The as-written routing is `Dispatch.RouteInteractionAsWritten`, and the as-written `add_qa` is `Bot.ZitateBot.AddQaUnfixed`.
- The reply delivery and the `unwrap` on sending a reply are not modelled.

## Findings

| source | as written | input that shows it | evidently intended | confidence | as-written member | corrected member |
|---|---|---|---|---|---|---|
| src/main.rs:476-485 | `add_qa` computes `already_assisted` with the same `->said` query as `already_said` | a user with an `assisted` edge on quote q runs `/assistiert` on q again, or `/gesagt` on q | query `->assisted` (as src/db/mod.rs:41-47 does): refuse a second `assisted` edge and a `said` edge next to an `assisted` one | high, not executed | Store.AddQaUnfixedBreaksExclusive | Store.AddQaKeepsExclusive |
| src/event_handler/mod.rs:105-116 | the channel's parent is unwrapped and its name parsed as `u64` before the command is matched | `/stats alice` in the bot channel `zitate-bot` (no parent, non-numeric name) | only the thread commands need the parent and the quote id; `/stats` and `/ranking` are answered in the bot channel | high, not executed | Dispatch.StatsInBotChannelCrashes | Dispatch.RouteInteractionGuards |

=== FILE: bot.dfy ===
/**
 * The running bot as one object: the database tables, the global quote
 * counter `OVERALL_ZITATE_COUNT` and the attribution threads that are open.
 * Each handler updates the fields in place; its contract ties the new state
 * to the pure operations of the `Store` module.
 */
module Bot {
  import opened Wrappers
  import opened Text
  import opened Store
  import opened Stats
  import opened Dispatch

  const FERTIG_REFUSAL: string := "Nein, bist du nicht"
  const USER_NOT_FOUND: string := "User not found"

  /** A message as the platform delivers it. */
  datatype Message = Message(id: nat, authorId: nat, authorName: string, authorIsBot: bool,
                             isRegular: bool, channel: nat, content: string)

  /** What a slash command leaves behind. */
  datatype Response = Silent | Failed | Reply(text: string)

  /** What a console line leaves behind. */
  datatype ConsoleOutcome = Printed(text: string) | Done | Exited | Panicked

  class ZitateBot {
    var users: seq<DbUser>
    var quotes: map<nat, string>
    var edges: seq<Edge>
    /** `OVERALL_ZITATE_COUNT`: a `u16`, the total every percentage is taken against. */
    var count: nat
    /** The quotes whose attribution thread under the bot channel is open. */
    var threads: set<nat>
    const zitateChannel: nat
    const botChannel: nat

    /** The database the fields hold. */
    function State(): Db
      reads this
    {
      Db(users, quotes, edges)
    }

    ghost predicate Valid()
      reads this
    {
      Store.Valid(State()) && count < 0x10000
    }

    /**
     * Startup: connect to the stored tables and initialise the counter from
     * `SELECT count() FROM zitat GROUP BY count`, 0 when there is no row.
     */
    constructor (users0: seq<DbUser>, quotes0: map<nat, string>, edges0: seq<Edge>,
                 zitateChannel: nat, botChannel: nat, openThreads: set<nat>)
      requires Store.Valid(Db(users0, quotes0, edges0)) && |quotes0| < 0x10000
      ensures Valid()
      ensures State() == Db(users0, quotes0, edges0) && threads == openThreads
      ensures this.zitateChannel == zitateChannel && this.botChannel == botChannel
      ensures count == |quotes0|
    {
      users := users0;
      quotes := quotes0;
      edges := edges0;
      this.zitateChannel := zitateChannel;
      this.botChannel := botChannel;
      count := InitialCount(QuoteCountQuery(quotes0));
      threads := openThreads;
      InitialCountIsQuoteCount(quotes0);
    }

    /** `add_user`: `CREATE user:{id}`, which fails (changing nothing) when that record exists. */
    method AddUser(id: nat, name: string)
      requires Valid() && id < U64_BOUND
      modifies this
      ensures Valid()
      ensures State() == Store.AddUser(old(State()), id, name)
      ensures count == old(count) && threads == old(threads)
    {
      AddUserValid(State(), id, name);
      if !HasUserId(users, UserRecordId(id)) {
        users := users + [NewUser(id, name)];
      }
    }

    /**
     * `register_zitat`: find the author by platform id or add them, create
     * the quote with its `wrote` edge, then open the attribution thread and
     * bump the counter. When the bot channel is not a guild channel the
     * handler returns after storing the quote: no thread, no increment.
     */
    method RegisterZitat(msgId: nat, authorId: nat, authorName: string, text: string, botChannelIsGuild: bool)
      requires Valid() && authorId < U64_BOUND
      modifies this
      ensures Valid()
      ensures State() == Register(old(State()), msgId, authorId, authorName, text)
      ensures botChannelIsGuild ==> threads == old(threads) + {msgId} && count == (old(count) + 1) % 0x10000
      ensures !botChannelIsGuild ==> threads == old(threads) && count == old(count)
    {
      StoreZitat(msgId, authorId, authorName, text);
      if botChannelIsGuild {
        threads := threads + {msgId};
        count := (count + 1) % 0x10000;
      }
    }

    /** The database part of `register_zitat`: the author lookup or insertion, then the quote and its `wrote` edge. */
    method StoreZitat(msgId: nat, authorId: nat, authorName: string, text: string)
      requires Valid() && authorId < U64_BOUND
      modifies this
      ensures Valid()
      ensures State() == Register(old(State()), msgId, authorId, authorName, text)
      ensures count == old(count) && threads == old(threads)
    {
      ghost var before := State();
      RegisterValid(before, msgId, authorId, authorName, text);
      var author: DbUser;
      var lookup := ByUid(users, authorId);
      if lookup.Found? {
        author := lookup.user;
      } else {
        AddUser(authorId, authorName);
        author := NewUser(authorId, authorName);
      }
      assert (State(), author) == EnsureAuthor(before, authorId, authorName);
      ghost var withAuthor := State();
      if msgId !in quotes {
        quotes := quotes[msgId := text];
      }
      edges := edges + [Edge(Wrote, author.id, msgId)];
      assert State() == CreateZitat(withAuthor, msgId, text, author.id);
    }

    /**
     * `remove_zitat`: delete the quote and every edge into it in one
     * transaction, then delete its thread; finding the thread among the
     * active ones panics (after the deletion) when it is not open. The
     * counter is left as it is.
     */
    method RemoveZitat(id: nat) returns (crashed: bool)
      requires Valid()
      modifies this
      ensures Valid()
      ensures State() == Store.RemoveZitat(old(State()), id)
      ensures crashed <==> id !in old(threads)
      ensures threads == old(threads) - {id} && count == old(count)
    {
      var kept := EdgesKept(id);
      quotes := quotes - {id};
      edges := kept;
      crashed := id !in threads;
      threads := threads - {id};
    }

    /** The edge scan of `remove_zitat`'s cascade: the edges that do not point at quote `id`, in order. */
    method EdgesKept(id: nat) returns (kept: seq<Edge>)
      ensures kept == EdgesNotInto(edges, id)
    {
      kept := [];
      var i := 0;
      while i < |edges|
        invariant 0 <= i <= |edges|
        invariant kept == EdgesNotInto(edges[..i], id)
      {
        assert edges[..i + 1] == edges[..i] + [edges[i]];
        if edges[i].to != id {
          kept := kept + [edges[i]];
        }
        i := i + 1;
      }
      assert edges[..|edges|] == edges;
    }

    /** `message_update` in the quotes channel: compare the stored text with the new content, replace it if they differ. */
    method MessageUpdate(channel: nat, id: nat, content: Option<string>) returns (outcome: EditOutcome)
      requires Valid()
      modifies this
      ensures Valid()
      ensures channel != zitateChannel ==> State() == old(State()) && outcome == Unchanged
      ensures channel == zitateChannel ==> (State(), outcome) == EditZitat(old(State()), id, content)
      ensures count == old(count) && threads == old(threads)
    {
      if channel != zitateChannel {
        return Unchanged;
      }
      var oldText: Option<string> := if id in quotes then Some(quotes[id]) else None;
      if oldText == content {
        outcome := Unchanged;
      } else if content.None? || oldText.None? {
        outcome := Crashed;
      } else {
        quotes := quotes[id := content.value];
        outcome := Replaced;
      }
    }

    /** `add_qa` of `src/db/mod.rs`: read both edges of (user, quote), relate only when neither exists. */
    method AddQa(t: QAType, user: DbUser, id: nat) returns (reply: string)
      requires Valid() && user in users
      modifies this
      ensures Valid()
      ensures (State(), reply) == Store.AddQa(old(State()), t, user, id)
      ensures count == old(count) && threads == old(threads)
    {
      var alreadySaid := Edge(Said, user.id, id) in edges;
      var alreadyAssisted := Edge(Assisted, user.id, id) in edges;
      reply := Relate(t, user, id, alreadySaid, alreadyAssisted);
    }

    /** `add_qa` of `src/main.rs`: the `assisted` flag is read from the `said` edges too. */
    method AddQaUnfixed(t: QAType, user: DbUser, id: nat) returns (reply: string)
      requires Valid() && user in users
      modifies this
      ensures Valid()
      ensures (State(), reply) == Store.AddQaUnfixed(old(State()), t, user, id)
      ensures count == old(count) && threads == old(threads)
    {
      var alreadySaid := Edge(Said, user.id, id) in edges;
      var alreadyAssisted := Edge(Said, user.id, id) in edges;
      reply := Relate(t, user, id, alreadySaid, alreadyAssisted);
    }

    /** The four-way branch of `add_qa` once both flags are read. */
    method Relate(t: QAType, user: DbUser, id: nat, alreadySaid: bool, alreadyAssisted: bool) returns (reply: string)
      requires Valid() && user in users
      modifies this
      ensures Valid()
      ensures (State(), reply) == QaApply(old(State()), t, user, id, alreadySaid, alreadyAssisted)
      ensures count == old(count) && threads == old(threads)
    {
      if (alreadySaid && t == SaidClaim) || (alreadyAssisted && t == AssistClaim) {
        reply := ALREADY_RECORDED;
      } else if alreadySaid && t == AssistClaim {
        reply := SAID_EXISTS;
      } else if alreadyAssisted && t == SaidClaim {
        reply := ASSISTED_EXISTS;
      } else {
        var e := Edge(EdgeKind(t), user.id, id);
        assert HasUserId(users, e.from);
        edges := edges + [e];
        reply := RecordedMessage(user.name);
      }
    }

    /**
     * The `fertig` gate: when the quote is stored and at least one `said`
     * edge points at it, the thread is deleted and nothing is replied;
     * otherwise the refusal is replied and the thread stays.
     */
    method Fertig(id: nat) returns (refusal: Option<string>)
      requires Valid()
      modifies this
      ensures Valid() && State() == old(State()) && count == old(count)
      ensures refusal.None? <==> id in quotes && exists e :: e in edges && e.kind == Said && e.to == id
      ensures refusal.None? ==> threads == old(threads) - {id}
      ensures refusal.Some? ==> refusal.value == FERTIG_REFUSAL && threads == old(threads)
    {
      if MayClose(State(), id) {
        threads := threads - {id};
        refusal := None;
      } else {
        refusal := Some(FERTIG_REFUSAL);
      }
    }

    /** `get_user_stats` for a name: the stats text of the one user with that name, `None` if there is none or several. */
    function StatsFor(name: string): (r: Option<string>)
      requires Valid()
      reads this
      ensures r.Some? <==> ByName(users, name).Found?
      ensures r.Some? ==> var u := ByName(users, name).user;
                          r.value == StatsText(u.name, GetStats(State(), u), count)
    {
      match ByName(users, name)
      case Found(u) => Some(StatsText(u.name, GetStats(State(), u), count))
      case _ => None
    }

    /** `get_ranking` against the current counter. */
    function RankingFor(k: Kind): string
      requires Valid()
      reads this
    {
      RankingText(State(), k, count)
    }

    /** `message`: register a regular human message posted in the quotes channel, ignore the rest. */
    method OnMessage(msg: Message, isPrivate: bool, botChannelIsGuild: bool) returns (route: MessageRoute)
      requires Valid() && msg.authorId < U64_BOUND
      modifies this
      ensures Valid()
      ensures route == RouteMessage(msg.authorIsBot, msg.isRegular, msg.channel, zitateChannel, isPrivate)
      ensures route.RegisterQuote? ==>
                State() == Register(old(State()), msg.id, msg.authorId, msg.authorName, msg.content)
      ensures route.RegisterQuote? && botChannelIsGuild ==>
                threads == old(threads) + {msg.id} && count == (old(count) + 1) % 0x10000
      ensures route.RegisterQuote? && !botChannelIsGuild ==> threads == old(threads) && count == old(count)
      ensures !route.RegisterQuote? ==> State() == old(State()) && count == old(count) && threads == old(threads)
    {
      route := RouteMessage(msg.authorIsBot, msg.isRegular, msg.channel, zitateChannel, isPrivate);
      if route.RegisterQuote? {
        RegisterZitat(msg.id, msg.authorId, msg.authorName, msg.content, botChannelIsGuild);
      }
    }

    /** `message_delete`: only a deletion in the quotes channel removes a quote. */
    method OnDelete(channel: nat, msgId: nat) returns (crashed: bool)
      requires Valid()
      modifies this
      ensures Valid() && count == old(count)
      ensures channel == zitateChannel ==> State() == Store.RemoveZitat(old(State()), msgId)
      ensures channel == zitateChannel ==> threads == old(threads) - {msgId} && (crashed <==> msgId !in old(threads))
      ensures channel != zitateChannel ==> State() == old(State()) && threads == old(threads) && !crashed
    {
      crashed := false;
      if RouteDelete(channel, zitateChannel) {
        crashed := RemoveZitat(msgId);
      }
    }

    /**
     * `interaction_create` with the intended routing: answer `stats` and
     * `ranking` in the bot channel, attribute or close inside a quote's
     * thread; a name that finds no single user hits an `unwrap`.
     */
    method OnCommand(cmd: Command, channel: CommandChannel) returns (r: Response)
      requires Valid()
      modifies this
      ensures Valid() && count == old(count)
      ensures var route := RouteInteraction(cmd, channel, botChannel);
              && (route.Attribute? && ByName(old(users), route.name).Found? ==>
                    r == Reply(Store.AddQa(old(State()), route.t, ByName(old(users), route.name).user, route.quote).1)
                    && State() == Store.AddQa(old(State()), route.t, ByName(old(users), route.name).user, route.quote).0)
              && (route.Attribute? && !ByName(old(users), route.name).Found? ==> r == Failed && State() == old(State()))
              && (!route.Attribute? ==> State() == old(State()))
              && (!route.Finish? ==> threads == old(threads))
              && (route.NoResponse? ==> r == Silent)
              && (route.Crash? ==> r == Failed)
              && (route.ShowRanking? ==> r == Reply(RankingText(old(State()), route.kind, count)))
              && (route.ShowStats? ==>
                    var lookup := ByName(old(users), route.name);
                    r == if lookup.Found? then Reply(StatsText(lookup.user.name, GetStats(old(State()), lookup.user), count))
                         else Failed)
              && (route.Finish? ==>
                    if MayClose(old(State()), route.quote) then r == Silent && threads == old(threads) - {route.quote}
                    else r == Reply(FERTIG_REFUSAL) && threads == old(threads))
    {
      var route := RouteInteraction(cmd, channel, botChannel);
      match route
      case NoResponse =>
        r := Silent;
      case Crash =>
        r := Failed;
      case ShowStats(name) =>
        var text := StatsFor(name);
        r := if text.Some? then Reply(text.value) else Failed;
      case ShowRanking(k) =>
        r := Reply(RankingFor(k));
      case Attribute(t, name, q) =>
        var lookup := ByName(users, name);
        if lookup.Found? {
          var reply := AddQa(t, lookup.user, q);
          r := Reply(reply);
        } else {
          r := Failed;
        }
      case Finish(q) =>
        var refusal := Fertig(q);
        r := if refusal.Some? then Reply(refusal.value) else Silent;
    }

    /**
     * `console_input_handler`: act on one line read from standard input.
     * `fetched` is the message `zitat add` fetches by id, if it could be fetched.
     */
    method OnConsole(input: string, fetched: Option<Message>, botChannelIsGuild: bool) returns (out: ConsoleOutcome)
      requires Valid()
      requires fetched.Some? ==> fetched.value.authorId < U64_BOUND
      modifies this
      ensures Valid()
      ensures var action := ParseConsole(input);
              && (action.AddZitat? && fetched.Some? ==>
                    && State() == Register(old(State()), fetched.value.id, fetched.value.authorId, fetched.value.authorName, fetched.value.content)
                    && (botChannelIsGuild ==> threads == old(threads) + {fetched.value.id} && count == (old(count) + 1) % 0x10000)
                    && (!botChannelIsGuild ==> threads == old(threads) && count == old(count)))
              && (action.AddZitat? && fetched.None? ==>
                    State() == old(State()) && count == old(count) && threads == old(threads))
              && (action.RemoveZitatCmd? ==>
                    && State() == Store.RemoveZitat(old(State()), action.msgId)
                    && threads == old(threads) - {action.msgId} && count == old(count))
              && (action.AddUserCmd? ==>
                    State() == Store.AddUser(old(State()), action.id, action.name) && count == old(count) && threads == old(threads))
              && (!action.AddZitat? && !action.RemoveZitatCmd? && !action.AddUserCmd? ==>
                    State() == old(State()) && count == old(count) && threads == old(threads))
              && (out.Panicked? <==>
                    || action.Panic?
                    || (action.AddZitat? && fetched.None?)
                    || (action.RemoveZitatCmd? && action.msgId !in old(threads))
                    || (action.UserStatsCmd? && ByName(old(users), action.name).TooMany?))
              && (action.Say? ==> out == Printed(action.text))
              && ((action.AddZitat? || action.RemoveZitatCmd? || action.AddUserCmd?) && !out.Panicked? ==> out == Done)
              && (action.UserStatsCmd? && ByName(users, action.name).NotFound? ==> out == Printed(USER_NOT_FOUND))
              && (action.UserStatsCmd? && ByName(users, action.name).Found? ==>
                    var u := ByName(users, action.name).user;
                    out == Printed(StatsText(u.name, GetStats(old(State()), u), count)))
              && (action.UserRanking? ==> out == Printed(RankingText(old(State()), action.kind, count)))
              && (action.Exit? ==> out == Exited)
    {
      var action := ParseConsole(input);
      match action
      case AddZitat(id) =>
        if fetched.Some? {
          RegisterZitat(fetched.value.id, fetched.value.authorId, fetched.value.authorName, fetched.value.content, botChannelIsGuild);
          out := Done;
        } else {
          out := Panicked;
        }
      case RemoveZitatCmd(id) =>
        var crashed := RemoveZitat(id);
        out := if crashed then Panicked else Done;
      case AddUserCmd(id, name) =>
        AddUser(id, name);
        out := Done;
      case UserStatsCmd(name) =>
        match ByName(users, name) {
          case Found(u) =>
            out := Printed(StatsText(u.name, GetStats(State(), u), count));
          case NotFound =>
            out := Printed(USER_NOT_FOUND);
          case TooMany =>
            out := Panicked;
        }
      case UserRanking(k) =>
        out := Printed(RankingFor(k));
      case Exit =>
        out := Exited;
      case Say(text) =>
        out := Printed(text);
      case Panic =>
        out := Panicked;
    }
  }
}

=== FILE: dispatch.dfy ===
/**
 * The decisions the bot takes before touching the store: the console command
 * language read from standard input, and the routing of the platform events
 * (new message, deleted message, slash command) to the operations.
 */
module Dispatch {
  import opened Wrappers
  import opened Text
  import opened Store

  // ---------------------------------------------------------------------------
  // Console commands
  // ---------------------------------------------------------------------------

  const UNKNOWN_COMMAND: string := "Unknown command"
  const UNKNOWN_SUBCOMMAND: string := "Unknown subcommand"
  const MISSING_SUBCOMMAND: string := "Missing subcommand"
  const UNKNOWN_RANKING_TYPE: string := "Unknown ranking type"
  const MISSING_RANKING_TYPE: string := "Missing ranking type"

  /** What one console line asks for. */
  datatype ConsoleAction =
    | AddZitat(msgId: nat)               // zitat add <msgId>
    | RemoveZitatCmd(msgId: nat)         // zitat remove <msgId>
    | AddUserCmd(id: nat, name: string)  // user add <name> <id>
    | UserStatsCmd(name: string)         // user stats <name>
    | UserRanking(kind: Kind)            // user ranking said|wrote|assisted
    | Exit                               // exit
    | Say(text: string)                  // a fixed message printed to the console
    | Panic                              // a missing token or an unparsable id hit an `unwrap`

  /** `result.get(2).unwrap().parse::<u64>().unwrap()`. */
  function IdAt(tokens: seq<string>, i: nat): Option<nat>
  {
    if i < |tokens| then ParseU64(tokens[i]) else None
  }

  /** The ranking type token of `user ranking`. */
  function RankingKind(token: string): Option<Kind>
  {
    if token == "said" then Some(Said)
    else if token == "wrote" then Some(Wrote)
    else if token == "assisted" then Some(Assisted)
    else None
  }

  /** The subcommands of `zitat`. */
  function ZitatCommand(tokens: seq<string>): ConsoleAction
    requires |tokens| >= 1
  {
    if |tokens| < 2 then Say(MISSING_SUBCOMMAND)
    else if tokens[1] == "add" then
      match IdAt(tokens, 2)
      case Some(id) => AddZitat(id)
      case None => Panic
    else if tokens[1] == "remove" then
      match IdAt(tokens, 2)
      case Some(id) => RemoveZitatCmd(id)
      case None => Panic
    else Say(UNKNOWN_SUBCOMMAND)
  }

  /** The subcommands of `user`; `user add` reads the id (token 3) before the name (token 2). */
  function UserCommand(tokens: seq<string>): ConsoleAction
    requires |tokens| >= 1
  {
    if |tokens| < 2 then Say(MISSING_SUBCOMMAND)
    else if tokens[1] == "add" then
      match IdAt(tokens, 3)
      case Some(id) => AddUserCmd(id, tokens[2])
      case None => Panic
    else if tokens[1] == "stats" then
      if |tokens| < 3 then Panic else UserStatsCmd(tokens[2])
    else if tokens[1] == "ranking" then
      if |tokens| < 3 then Say(MISSING_RANKING_TYPE)
      else match RankingKind(tokens[2])
        case Some(k) => UserRanking(k)
        case None => Say(UNKNOWN_RANKING_TYPE)
    else Say(UNKNOWN_SUBCOMMAND)
  }

  /** The tokens of a console line: trimmed, then split on every single space. */
  function Tokens(input: string): (tokens: seq<string>)
    ensures |tokens| >= 1
    ensures forall i :: 0 <= i < |tokens| ==> ' ' !in tokens[i]
    ensures Join(tokens, " ") == Trim(input)
  {
    JoinSplit(Trim(input), ' ');
    SplitPiecesFree(Trim(input), ' ');
    Split(Trim(input), ' ')
  }

  /** `console_input_handler`'s decision for one input line. */
  function ParseConsole(input: string): ConsoleAction
  {
    var tokens := Tokens(input);
    if tokens[0] == "zitat" then ZitatCommand(tokens)
    else if tokens[0] == "user" then UserCommand(tokens)
    else if tokens[0] == "exit" then Exit
    else Say(UNKNOWN_COMMAND)
  }

  /** A blank line is one empty token, which is no command. */
  lemma BlankLineIsUnknown(input: string)
    requires AllWhitespace(input)
    ensures Tokens(input) == [""]
    ensures ParseConsole(input) == Say(UNKNOWN_COMMAND)
  {
    TrimPadded(input, "", "");
    assert input + "" + "" == input;
  }

  /** Whitespace around a command does not change what it does. */
  lemma SurroundingWhitespaceIgnored(p: string, s: string, q: string)
    requires AllWhitespace(p) && AllWhitespace(q)
    ensures ParseConsole(p + s + q) == ParseConsole(s)
  {
    TrimPadded(p, s, q);
  }

  /** A number written in decimal is a word: no space, and no whitespace at its end. */
  lemma DecimalIsWord(n: nat)
    ensures ' ' !in Decimal(n) && !IsWhitespace(Decimal(n)[|Decimal(n)| - 1])
  {
    var d := Decimal(n);
    forall k | 0 <= k < |d| ensures d[k] != ' ' {
    }
  }

  /**
   * A line made of words separated by single spaces, with no whitespace at
   * its two ends, has exactly those words as its tokens.
   */
  lemma TokensOfWords(words: seq<string>)
    requires |words| >= 1 && forall i :: 0 <= i < |words| ==> ' ' !in words[i]
    requires |words[0]| > 0 && !IsWhitespace(words[0][0])
    requires var last := words[|words| - 1]; |last| > 0 && !IsWhitespace(last[|last| - 1])
    ensures Tokens(Join(words, " ")) == words
  {
    assert " " == [' '];
    JoinEnds(words, " ");
    TrimOfTight(Join(words, " "));
    SplitJoin(words, ' ');
  }

  /** `zitat add <id>` registers the message with that id. */
  lemma ZitatAddRoundTrip(id: nat)
    requires id < U64_BOUND
    ensures ParseConsole(Join(["zitat", "add", Decimal(id)], " ")) == AddZitat(id)
  {
    DecimalIsWord(id);
    ParseDecimal(id);
    TokensOfWords(["zitat", "add", Decimal(id)]);
  }

  /** `zitat remove <id>` removes the quote with that id. */
  lemma ZitatRemoveRoundTrip(id: nat)
    requires id < U64_BOUND
    ensures ParseConsole(Join(["zitat", "remove", Decimal(id)], " ")) == RemoveZitatCmd(id)
  {
    DecimalIsWord(id);
    ParseDecimal(id);
    var words := ["zitat", "remove", Decimal(id)];
    TokensOfWords(words);
    assert words[1] != "add" && IdAt(words, 2) == Some(id);
  }

  /**
   * `user add <name> <id>` adds the user with that name and id, provided the
   * name has no space (a space would shift the id to another token).
   */
  lemma UserAddRoundTrip(name: string, id: nat)
    requires id < U64_BOUND && ' ' !in name
    ensures ParseConsole(Join(["user", "add", name, Decimal(id)], " ")) == AddUserCmd(id, name)
  {
    DecimalIsWord(id);
    ParseDecimal(id);
    TokensOfWords(["user", "add", name, Decimal(id)]);
  }

  /** `user ranking` with one of the three table names selects that table; anything else is refused. */
  lemma UserRankingTypes(token: string)
    requires ' ' !in token && |token| > 0 && !IsWhitespace(token[|token| - 1])
    ensures var action := ParseConsole(Join(["user", "ranking", token], " "));
            && (RankingKind(token).Some? ==> action == UserRanking(RankingKind(token).value))
            && (RankingKind(token).None? ==> action == Say(UNKNOWN_RANKING_TYPE))
  {
    TokensOfWords(["user", "ranking", token]);
  }

  /** A command word alone lacks its subcommand. */
  lemma ZitatAlone()
    ensures ParseConsole("zitat") == Say(MISSING_SUBCOMMAND)
  {
    TokensOfWords(["zitat"]);
    assert Join(["zitat"], " ") == "zitat";
  }

  lemma UserAlone()
    ensures ParseConsole("user") == Say(MISSING_SUBCOMMAND)
  {
    TokensOfWords(["user"]);
    assert Join(["user"], " ") == "user";
  }

  /** `user ranking` alone lacks its type. */
  lemma RankingTypeMissing()
    ensures ParseConsole(Join(["user", "ranking"], " ")) == Say(MISSING_RANKING_TYPE)
  {
    TokensOfWords(["user", "ranking"]);
  }

  // ---------------------------------------------------------------------------
  // Platform events
  // ---------------------------------------------------------------------------

  /** Where a new message goes. */
  datatype MessageRoute = IgnoreMessage | RegisterQuote | ForwardDm

  /**
   * `message`: messages by bots and non-regular messages are ignored; a
   * message in the quotes channel is registered as a quote; one in a private
   * channel goes to the direct-message handler; anything else is ignored.
   */
  function RouteMessage(authorIsBot: bool, isRegular: bool, channel: nat, zitateChannel: nat, isPrivate: bool): (r: MessageRoute)
    ensures r.RegisterQuote? ==> channel == zitateChannel
    ensures r.ForwardDm? ==> channel != zitateChannel && isPrivate
    ensures !authorIsBot && isRegular && channel != zitateChannel ==> (r.ForwardDm? <==> isPrivate)
    ensures authorIsBot || !isRegular ==> r.IgnoreMessage?
  {
    if authorIsBot || !isRegular then IgnoreMessage
    else if channel == zitateChannel then RegisterQuote
    else if isPrivate then ForwardDm
    else IgnoreMessage
  }

  /** Every regular human message in the quotes channel is registered, and nothing else is. */
  lemma RegisterExactlyInQuotesChannel(authorIsBot: bool, isRegular: bool, channel: nat, zitateChannel: nat, isPrivate: bool)
    ensures RouteMessage(authorIsBot, isRegular, channel, zitateChannel, isPrivate).RegisterQuote?
            <==> !authorIsBot && isRegular && channel == zitateChannel
  {
  }

  /** `message_delete`: a deletion removes a quote only when it happens in the quotes channel. */
  function RouteDelete(channel: nat, zitateChannel: nat): (remove: bool)
    ensures remove <==> channel == zitateChannel
  {
    channel == zitateChannel
  }

  // ---------------------------------------------------------------------------
  // Slash commands
  // ---------------------------------------------------------------------------

  /**
   * The channel a command is invoked in, as `to_channel` reports it: a guild
   * channel with its id, name and optional parent, or any other kind.
   */
  datatype CommandChannel =
    | GuildChannel(id: nat, name: string, parent: Option<nat>)
    | OtherChannel(id: nat)

  /** A slash command: its name and the string value of its first option, if any. */
  datatype Command = Command(name: string, option: Option<string>)

  /** The outcome of routing a slash command. */
  datatype InteractionRoute =
    | NoResponse
    | Crash
    | ShowStats(name: string)
    | ShowRanking(kind: Kind)
    | Attribute(t: QAType, name: string, quote: nat)
    | Finish(quote: nat)

  /** The option value a command needs; its absence hits an `unwrap`. */
  function WithOption(cmd: Command, f: string -> InteractionRoute): InteractionRoute
  {
    match cmd.option
    case Some(v) => f(v)
    case None => Crash
  }

  /** The commands answered inside an attribution thread, given the quote id the thread stands for. */
  function ThreadCommand(cmd: Command, quote: nat): InteractionRoute
  {
    if cmd.name == "gesagt" then WithOption(cmd, v => Attribute(SaidClaim, v, quote))
    else if cmd.name == "assistiert" then WithOption(cmd, v => Attribute(AssistClaim, v, quote))
    else if cmd.name == "fertig" then Finish(quote)
    else NoResponse
  }

  /** The commands answered in the bot channel. */
  function BotChannelCommand(cmd: Command): InteractionRoute
  {
    if cmd.name == "stats" then WithOption(cmd, v => ShowStats(v))
    else if cmd.name == "ranking" then
      match cmd.option
      case None => Crash
      case Some(v) =>
        match RankingKind(v)
        case Some(k) => ShowRanking(k)
        case None => NoResponse
    else NoResponse
  }

  /**
   * `interaction_create` as written: it unwraps the channel's parent and
   * parses the channel name as the quote id before looking at the command,
   * then matches the command against its channel guard.
   */
  function RouteInteractionAsWritten(cmd: Command, channel: CommandChannel, botChannel: nat): InteractionRoute
  {
    match channel
    case OtherChannel(_) => NoResponse
    case GuildChannel(id, name, parent) =>
      if parent.None? then Crash
      else match ParseU64(name)
        case None => Crash
        case Some(quote) =>
          if id == botChannel && (cmd.name == "stats" || cmd.name == "ranking") then BotChannelCommand(cmd)
          else if parent.value == botChannel then ThreadCommand(cmd, quote)
          else NoResponse
  }

  /**
   * `interaction_create` as its guards intend: `stats` and `ranking` are
   * answered in the bot channel; `gesagt`, `assistiert` and `fertig` in a
   * thread under it, whose name is the quote id. Only the thread commands
   * need the parent and the parsed name.
   */
  function RouteInteraction(cmd: Command, channel: CommandChannel, botChannel: nat): InteractionRoute
  {
    match channel
    case OtherChannel(_) => NoResponse
    case GuildChannel(id, name, parent) =>
      if id == botChannel && (cmd.name == "stats" || cmd.name == "ranking") then BotChannelCommand(cmd)
      else if parent == Some(botChannel) && (cmd.name == "gesagt" || cmd.name == "assistiert" || cmd.name == "fertig") then
        match ParseU64(name)
        case Some(quote) => ThreadCommand(cmd, quote)
        case None => Crash
      else NoResponse
  }

  /**
   * As written, `/stats` and `/ranking` can never be answered in the bot
   * channel: its name is not a number (e.g. `zitate-bot`), so parsing it as
   * a quote id panics first. The intended routing answers them.
   */
  lemma StatsInBotChannelCrashes(who: string, name: string, parent: Option<nat>, botChannel: nat)
    requires ParseU64(name).None?
    ensures RouteInteractionAsWritten(Command("stats", Some(who)), GuildChannel(botChannel, name, parent), botChannel) == Crash
    ensures RouteInteraction(Command("stats", Some(who)), GuildChannel(botChannel, name, parent), botChannel) == ShowStats(who)
  {
  }

  /** The bot channel's own name, which is not a number. */
  lemma BotChannelNameIsNotAnId()
    ensures ParseU64("zitate-bot").None?
  {
    assert !IsDigit("zitate-bot"[0]);
  }

  /**
   * The intended routing: `stats`/`ranking` get an answer only in the bot
   * channel, thread commands only in a channel whose parent is the bot
   * channel, and every other command gets none.
   */
  lemma RouteInteractionGuards(cmd: Command, channel: CommandChannel, botChannel: nat)
    ensures var r := RouteInteraction(cmd, channel, botChannel);
            && ((r.ShowStats? || r.ShowRanking?) ==> channel.GuildChannel? && channel.id == botChannel)
            && ((r.Attribute? || r.Finish?) ==> channel.GuildChannel? && channel.parent == Some(botChannel))
            && (r.ShowStats? <==> channel.GuildChannel? && channel.id == botChannel && cmd.name == "stats" && cmd.option.Some?)
            && (cmd.name !in {"stats", "ranking", "gesagt", "assistiert", "fertig"} ==> r == NoResponse)
  {
  }

  /** A `ranking` option other than said, wrote or assisted gets no response. */
  lemma UnknownRankingOptionIgnored(v: string, channel: CommandChannel, botChannel: nat)
    requires RankingKind(v).None?
    ensures RouteInteraction(Command("ranking", Some(v)), channel, botChannel) == NoResponse
    ensures RouteInteractionAsWritten(Command("ranking", Some(v)), channel, botChannel) in {NoResponse, Crash}
  {
  }

  /**
   * The attribution thread of quote `q` is named with its decimal id, so a
   * thread command there is about quote `q`, under both routings.
   */
  lemma ThreadNameRoundTrip(cmd: Command, threadId: nat, q: nat, botChannel: nat)
    requires q < U64_BOUND && threadId != botChannel
    ensures var channel := GuildChannel(threadId, Decimal(q), Some(botChannel));
            && RouteInteraction(cmd, channel, botChannel) == ThreadCommand(cmd, q)
            && RouteInteractionAsWritten(cmd, channel, botChannel) == ThreadCommand(cmd, q)
  {
    ParseDecimal(q);
  }

  /** Inside a thread the two routings agree. */
  lemma RoutingsAgreeInThreads(cmd: Command, threadId: nat, name: string, botChannel: nat)
    requires threadId != botChannel && ParseU64(name).Some?
    ensures RouteInteractionAsWritten(cmd, GuildChannel(threadId, name, Some(botChannel)), botChannel)
            == RouteInteraction(cmd, GuildChannel(threadId, name, Some(botChannel)), botChannel)
  {
  }
}

=== FILE: stats.dfy ===
/**
 * The read-only side of the bot: percentages against the global quote count,
 * the ranking per edge table grouped by user name, the per-user statistics,
 * and the list of quotes a user said, with the texts the bot sends for them.
 */
module Stats {
  import opened Wrappers
  import opened Text
  import opened Store

  // ---------------------------------------------------------------------------
  // Percentages
  // ---------------------------------------------------------------------------

  /**
   * `get_percentage` in hundredths of a percent: `count * 100 / total` to
   * two decimals, rounded to the nearest hundredth with halves rounded up
   * (away from zero, as `f32::round` does for non-negative values).
   */
  function Hundredths(count: nat, total: nat): (h: nat)
    requires total > 0
    ensures 2 * total * h <= 20000 * count + total < 2 * total * h + 2 * total
  {
    (20000 * count + total) / (2 * total)
  }

  /** Multiplication by a positive factor keeps strict order. */
  lemma MulCancel(k: nat, a: nat, b: nat)
    requires k > 0 && k * a < k * b
    ensures a < b
  {
  }

  /** A larger count never gets a smaller percentage, and a share of the total is at most 100.00 %. */
  lemma HundredthsMonotone(c1: nat, c2: nat, total: nat)
    requires total > 0 && c1 <= c2
    ensures Hundredths(c1, total) <= Hundredths(c2, total)
    ensures c2 <= total ==> Hundredths(c2, total) <= 10000
  {
    var h1, h2 := Hundredths(c1, total), Hundredths(c2, total);
    assert 2 * total * (h2 + 1) == 2 * total * h2 + 2 * total;
    MulCancel(2 * total, h1, h2 + 1);
    if c2 <= total {
      assert 2 * total * 10001 == 20002 * total;
      MulCancel(2 * total, h2, 10001);
    }
  }

  /**
   * The percentage as `{}` prints the `f32`: the integer part, then the
   * hundredths without trailing zeros. With a total of 0 the division gives
   * NaN (0 / 0) or infinity, printed `NaN` and `inf`.
   */
  function PercentText(count: nat, total: nat): string
  {
    if total == 0 then (if count == 0 then "NaN" else "inf")
    else
      var h := Hundredths(count, total);
      var frac := h % 100;
      Decimal(h / 100) + (if frac == 0 then "" else if frac % 10 == 0 then "." + Decimal(frac / 10) else "." + Pad2(frac))
  }

  /** Sample percentages: 25 of 100 is `25`, 1 of 3 is `33.33`, 1 of 8 is `12.5`, 0 of 0 is `NaN`. */
  lemma PercentTextExamples()
    ensures PercentText(25, 100) == "25"
    ensures PercentText(1, 3) == "33.33"
    ensures PercentText(1, 8) == "12.5"
    ensures PercentText(0, 0) == "NaN"
  {
    assert Hundredths(25, 100) == 2500;
    assert Hundredths(1, 3) == 3333;
    assert Hundredths(1, 8) == 1250;
    assert Decimal(33) == "33" by {
      assert Decimal(3) == "3";
    }
    assert Pad2(33) == "33";
  }

  // ---------------------------------------------------------------------------
  // Ranking
  // ---------------------------------------------------------------------------

  lemma HasUserIdTail(users: seq<DbUser>, id: string)
    requires HasUserId(users, id) && users[0].id != id
    ensures HasUserId(users[1..], id)
  {
    var u :| u in users && u.id == id;
    assert u in users[1..];
  }

  /** `in.name`: the name of the (first) user with record id `id`. */
  function NameOf(users: seq<DbUser>, id: string): string
    requires HasUserId(users, id)
  {
    if users[0].id == id then users[0].name
    else
      HasUserIdTail(users, id);
      NameOf(users[1..], id)
  }

  /** With unique record ids, the name found is that of the one user with this id. */
  lemma {:induction false} NameOfIs(users: seq<DbUser>, u: DbUser)
    requires u in users
    requires forall i, j :: 0 <= i < j < |users| ==> users[i].id != users[j].id
    ensures NameOf(users, u.id) == u.name
  {
    if users[0] != u {
      var k :| 0 <= k < |users| && users[k] == u;
      assert k > 0 && users[0].id != users[k].id;
      assert users[1..][k - 1] == u;
      NameOfIs(users[1..], u);
    }
  }

  /** The user names of the edges of table `k`, one per edge, in edge order. */
  function KindNames(users: seq<DbUser>, edges: seq<Edge>, k: Kind): (names: seq<string>)
    requires forall e :: e in edges ==> HasUserId(users, e.from)
    ensures |names| == Count(edges, OfKind(k))
  {
    if |edges| == 0 then []
    else
      var last := edges[|edges| - 1];
      assert last in edges;
      KindNames(users, edges[..|edges| - 1], k) + (if last.kind == k then [NameOf(users, last.from)] else [])
  }

  /** How often `n` occurs in `names`. */
  function Occ(names: seq<string>, n: string): nat
  {
    if |names| == 0 then 0
    else Occ(names[..|names| - 1], n) + (if names[|names| - 1] == n then 1 else 0)
  }

  lemma OccSnoc(names: seq<string>, m: string, n: string)
    ensures Occ(names + [m], n) == Occ(names, n) + (if m == n then 1 else 0)
  {
    assert (names + [m])[..|names|] == names;
  }

  /** A name occurs at least once exactly when it is in the list. */
  lemma {:induction false} OccPositive(names: seq<string>, n: string)
    ensures Occ(names, n) > 0 <==> n in names
  {
    if |names| > 0 {
      OccPositive(names[..|names| - 1], n);
      assert names == names[..|names| - 1] + [names[|names| - 1]];
    }
  }

  /** One line of a ranking: a user name and how many edges its users have. */
  datatype RankingRow = RankingRow(name: string, count: nat)

  ghost predicate DistinctNames(rows: seq<RankingRow>) {
    forall i, j :: 0 <= i < j < |rows| ==> rows[i].name != rows[j].name
  }

  function NameSet(rows: seq<RankingRow>): set<string> {
    set r | r in rows :: r.name
  }

  function Sum(rows: seq<RankingRow>): nat {
    if |rows| == 0 then 0 else rows[0].count + Sum(rows[1..])
  }

  /** Count one more occurrence of `n`: increment its row, or append a new row. */
  function Bump(rows: seq<RankingRow>, n: string): seq<RankingRow>
  {
    if |rows| == 0 then [RankingRow(n, 1)]
    else if rows[0].name == n then [rows[0].(count := rows[0].count + 1)] + rows[1..]
    else [rows[0]] + Bump(rows[1..], n)
  }

  /** A name already in the rows: its row's count goes up by one, every other row stays. */
  lemma {:induction false} BumpExisting(rows: seq<RankingRow>, n: string)
    requires DistinctNames(rows) && n in NameSet(rows)
    ensures |Bump(rows, n)| == |rows|
    ensures forall i :: 0 <= i < |rows| ==>
              Bump(rows, n)[i] == rows[i].(count := rows[i].count + (if rows[i].name == n then 1 else 0))
  {
    var r :| r in rows && r.name == n;
    if rows[0].name != n {
      assert r in rows[1..];
      BumpExisting(rows[1..], n);
    }
  }

  /** A new name gets a row of its own at the end. */
  lemma {:induction false} BumpNew(rows: seq<RankingRow>, n: string)
    requires n !in NameSet(rows)
    ensures Bump(rows, n) == rows + [RankingRow(n, 1)]
  {
    if |rows| > 0 {
      assert rows[0] in rows;
      assert n !in NameSet(rows[1..]);
      BumpNew(rows[1..], n);
    }
  }

  lemma {:induction false} BumpSum(rows: seq<RankingRow>, n: string)
    ensures Sum(Bump(rows, n)) == Sum(rows) + 1
  {
    if |rows| > 0 {
      var b := Bump(rows, n);
      if rows[0].name == n {
        assert b[1..] == rows[1..];
      } else {
        assert b[1..] == Bump(rows[1..], n);
        BumpSum(rows[1..], n);
      }
    }
  }

  /** Group a list of names into one row per distinct name, in order of first occurrence. */
  function Group(names: seq<string>): seq<RankingRow>
  {
    if |names| == 0 then [] else Bump(Group(names[..|names| - 1]), names[|names| - 1])
  }

  /** The rows of a grouping: distinct names, each counted exactly, each present, and all together the list's length. */
  ghost predicate IsGrouping(rows: seq<RankingRow>, names: seq<string>) {
    && DistinctNames(rows)
    && (forall i :: 0 <= i < |rows| ==> rows[i].count == Occ(names, rows[i].name) && rows[i].count > 0)
    && (forall n :: n in names <==> n in NameSet(rows))
    && Sum(rows) == |names|
  }

  lemma {:induction false} GroupIsGrouping(names: seq<string>)
    ensures IsGrouping(Group(names), names)
  {
    if |names| > 0 {
      var init, n := names[..|names| - 1], names[|names| - 1];
      assert names == init + [n];
      GroupIsGrouping(init);
      if n in NameSet(Group(init)) {
        GroupStepExisting(Group(init), init, n);
      } else {
        GroupStepNew(Group(init), init, n);
      }
    }
  }

  /** Rows with the same names, position by position, have the same name set and the same distinctness. */
  lemma SameNames(a: seq<RankingRow>, b: seq<RankingRow>)
    requires |a| == |b| && forall i :: 0 <= i < |a| ==> a[i].name == b[i].name
    ensures NameSet(a) == NameSet(b)
    ensures DistinctNames(a) ==> DistinctNames(b)
  {
    forall m | m in NameSet(a) ensures m in NameSet(b) {
      var r :| r in a && r.name == m;
      var i :| 0 <= i < |a| && a[i] == r;
      assert b[i] in b;
    }
    forall m | m in NameSet(b) ensures m in NameSet(a) {
      var r :| r in b && r.name == m;
      var i :| 0 <= i < |b| && b[i] == r;
      assert a[i] in a;
    }
  }

  /** Counting a name the grouping already has keeps it a grouping of the longer list. */
  lemma GroupStepExisting(rows: seq<RankingRow>, init: seq<string>, n: string)
    requires IsGrouping(rows, init) && n in NameSet(rows)
    ensures IsGrouping(Bump(rows, n), init + [n])
  {
    var b := Bump(rows, n);
    BumpSum(rows, n);
    BumpExisting(rows, n);
    SameNames(rows, b);
    forall i | 0 <= i < |b| ensures b[i].count == Occ(init + [n], b[i].name) {
      OccSnoc(init, n, b[i].name);
    }
  }

  /** Counting a new name appends its row and keeps it a grouping of the longer list. */
  lemma GroupStepNew(rows: seq<RankingRow>, init: seq<string>, n: string)
    requires IsGrouping(rows, init) && n !in NameSet(rows)
    ensures IsGrouping(Bump(rows, n), init + [n])
  {
    var b := Bump(rows, n);
    BumpSum(rows, n);
    BumpNew(rows, n);
    OccPositive(init, n);
    forall i | 0 <= i < |b| ensures b[i].count == Occ(init + [n], b[i].name) {
      OccSnoc(init, n, b[i].name);
      if i < |rows| {
        assert rows[i] in rows;
      }
    }
    forall i, j | 0 <= i < j < |b| ensures b[i].name != b[j].name {
      assert rows[i] in rows;
    }
    forall m ensures m in NameSet(b) <==> m in NameSet(rows) || m == n {
      if m in NameSet(b) {
        var r :| r in b && r.name == m;
        assert r in rows || r == RankingRow(n, 1);
      }
      if m in NameSet(rows) {
        var r :| r in rows && r.name == m;
        assert r in b;
      }
      if m == n {
        assert RankingRow(n, 1) in b;
      }
    }
  }

  /** Insert a row before the first row with a smaller count (so among equal counts the earlier row stays first). */
  function InsertByCount(x: RankingRow, sorted: seq<RankingRow>): seq<RankingRow>
  {
    if |sorted| == 0 || x.count >= sorted[0].count then [x] + sorted
    else [sorted[0]] + InsertByCount(x, sorted[1..])
  }

  /** Sort by count, largest first, keeping equal counts in their original order. */
  function SortByCount(rows: seq<RankingRow>): seq<RankingRow>
  {
    if |rows| == 0 then [] else InsertByCount(rows[0], SortByCount(rows[1..]))
  }

  ghost predicate NonIncreasing(rows: seq<RankingRow>) {
    forall i :: 0 < i < |rows| ==> rows[i - 1].count >= rows[i].count
  }

  lemma {:induction false} InsertByCountOrdered(x: RankingRow, s: seq<RankingRow>)
    requires NonIncreasing(s)
    ensures NonIncreasing(InsertByCount(x, s))
    ensures InsertByCount(x, s)[0] == x || InsertByCount(x, s)[0] == s[0]
  {
    if |s| > 0 && x.count < s[0].count {
      InsertByCountOrdered(x, s[1..]);
      assert InsertByCount(x, s)[1..] == InsertByCount(x, s[1..]);
    }
  }

  lemma InsertByCountContents(x: RankingRow, s: seq<RankingRow>)
    ensures multiset(InsertByCount(x, s)) == multiset(s) + multiset{x}
    ensures Sum(InsertByCount(x, s)) == Sum(s) + x.count
  {
    InsertByCountMultiset(x, s);
    InsertByCountSum(x, s);
  }

  lemma {:induction false} InsertByCountMultiset(x: RankingRow, s: seq<RankingRow>)
    ensures multiset(InsertByCount(x, s)) == multiset(s) + multiset{x}
  {
    if |s| > 0 && x.count < s[0].count {
      InsertByCountMultiset(x, s[1..]);
      var r := InsertByCount(x, s);
      assert r == [s[0]] + InsertByCount(x, s[1..]);
      assert s == [s[0]] + s[1..];
      assert multiset(r) == multiset{s[0]} + multiset(InsertByCount(x, s[1..]));
    }
  }

  lemma {:induction false} InsertByCountSum(x: RankingRow, s: seq<RankingRow>)
    ensures Sum(InsertByCount(x, s)) == Sum(s) + x.count
  {
    if |s| > 0 && x.count < s[0].count {
      InsertByCountSum(x, s[1..]);
      var r := InsertByCount(x, s);
      assert r == [s[0]] + InsertByCount(x, s[1..]);
      assert r[1..] == InsertByCount(x, s[1..]);
    }
  }

  lemma NameSetCons(h: RankingRow, t: seq<RankingRow>)
    ensures NameSet([h] + t) == {h.name} + NameSet(t)
  {
    forall n | n in NameSet(t) ensures n in NameSet([h] + t) {
      var r :| r in t && r.name == n;
      assert r in [h] + t;
    }
  }

  /** A row whose name is new can be put in front of distinctly named rows. */
  lemma DistinctCons(h: RankingRow, t: seq<RankingRow>)
    requires DistinctNames(t) && h.name !in NameSet(t)
    ensures DistinctNames([h] + t)
  {
    var r := [h] + t;
    forall i, j | 0 <= i < j < |r| ensures r[i].name != r[j].name {
      assert r[j] == t[j - 1];
      if i == 0 {
        assert t[j - 1] in t;
      } else {
        assert r[i] == t[i - 1];
      }
    }
  }

  /** Distinctly named rows: the first name is not among the rest, which are distinct too. */
  lemma DistinctUncons(s: seq<RankingRow>)
    requires DistinctNames(s) && |s| > 0
    ensures DistinctNames(s[1..]) && s[0].name !in NameSet(s[1..])
  {
    forall t | t in s[1..] ensures t.name != s[0].name {
      var k :| 0 <= k < |s[1..]| && s[1..][k] == t;
      assert s[k + 1] == t;
    }
  }

  lemma {:induction false} InsertByCountNames(x: RankingRow, s: seq<RankingRow>)
    ensures NameSet(InsertByCount(x, s)) == NameSet(s) + {x.name}
  {
    if |s| > 0 && x.count < s[0].count {
      InsertByCountNames(x, s[1..]);
      assert s == [s[0]] + s[1..];
      NameSetCons(s[0], s[1..]);
      NameSetCons(s[0], InsertByCount(x, s[1..]));
    } else {
      NameSetCons(x, s);
    }
  }

  lemma {:induction false} InsertByCountDistinct(x: RankingRow, s: seq<RankingRow>)
    requires DistinctNames(s) && x.name !in NameSet(s)
    ensures DistinctNames(InsertByCount(x, s))
  {
    if |s| == 0 || x.count >= s[0].count {
      DistinctCons(x, s);
    } else {
      assert s == [s[0]] + s[1..];
      NameSetCons(s[0], s[1..]);
      DistinctUncons(s);
      InsertByCountDistinct(x, s[1..]);
      InsertByCountNames(x, s[1..]);
      DistinctCons(s[0], InsertByCount(x, s[1..]));
    }
  }

  lemma {:induction false} SortByCountOrdered(rows: seq<RankingRow>)
    ensures NonIncreasing(SortByCount(rows))
  {
    if |rows| > 0 {
      SortByCountOrdered(rows[1..]);
      InsertByCountOrdered(rows[0], SortByCount(rows[1..]));
    }
  }

  lemma {:induction false} SortByCountContents(rows: seq<RankingRow>)
    ensures multiset(SortByCount(rows)) == multiset(rows)
    ensures Sum(SortByCount(rows)) == Sum(rows)
  {
    if |rows| > 0 {
      SortByCountContents(rows[1..]);
      InsertByCountContents(rows[0], SortByCount(rows[1..]));
      assert rows == [rows[0]] + rows[1..];
    }
  }

  lemma {:induction false} SortByCountDistinct(rows: seq<RankingRow>)
    requires DistinctNames(rows)
    ensures DistinctNames(SortByCount(rows))
  {
    if |rows| > 0 {
      DistinctUncons(rows);
      SortByCountDistinct(rows[1..]);
      SortByCountNames(rows[1..]);
      InsertByCountDistinct(rows[0], SortByCount(rows[1..]));
    }
  }

  lemma {:induction false} SortByCountNames(rows: seq<RankingRow>)
    ensures NameSet(SortByCount(rows)) == NameSet(rows)
  {
    if |rows| > 0 {
      SortByCountNames(rows[1..]);
      InsertByCountNames(rows[0], SortByCount(rows[1..]));
      assert rows == [rows[0]] + rows[1..];
      NameSetCons(rows[0], rows[1..]);
    }
  }

  /** Sorting gives a non-increasing permutation and keeps the names distinct. */
  lemma SortByCountFacts(rows: seq<RankingRow>)
    ensures var r := SortByCount(rows);
            && NonIncreasing(r)
            && multiset(r) == multiset(rows)
            && Sum(r) == Sum(rows)
            && (DistinctNames(rows) ==> DistinctNames(r))
  {
    SortByCountOrdered(rows);
    SortByCountContents(rows);
    if DistinctNames(rows) {
      SortByCountDistinct(rows);
    }
  }

  /** A permutation of a grouping is a grouping of the same names. */
  lemma PermutationIsGrouping(a: seq<RankingRow>, b: seq<RankingRow>, names: seq<string>)
    requires multiset(a) == multiset(b) && Sum(a) == Sum(b) && DistinctNames(b) && IsGrouping(a, names)
    ensures IsGrouping(b, names)
  {
    assert forall r :: r in a <==> r in multiset(a);
    assert forall r :: r in b <==> r in multiset(b);
    forall i | 0 <= i < |b| ensures b[i].count == Occ(names, b[i].name) && b[i].count > 0 {
      assert b[i] in a;
      var k :| 0 <= k < |a| && a[k] == b[i];
    }
  }

  /**
   * `get_ranking`'s query: the edges of table `k` grouped by their user's name
   * (users sharing a name share a row), ordered by count, largest first.
   */
  function Ranking(db: Db, k: Kind): seq<RankingRow>
    requires Anchored(db)
  {
    SortByCount(Group(KindNames(db.users, db.edges, k)))
  }

  /**
   * The ranking has one row per distinct user name among the edges of table
   * `k`, each with that name's exact edge count, in non-increasing order, and
   * the counts add up to the number of edges in the table.
   */
  lemma RankingCorrect(db: Db, k: Kind)
    requires Anchored(db)
    ensures var names := KindNames(db.users, db.edges, k);
            var r := Ranking(db, k);
            && NonIncreasing(r)
            && IsGrouping(r, names)
            && Sum(r) == Count(db.edges, OfKind(k))
  {
    var names := KindNames(db.users, db.edges, k);
    GroupIsGrouping(names);
    SortByCountFacts(Group(names));
    PermutationIsGrouping(Group(names), Ranking(db, k), names);
    assert Sum(Ranking(db, k)) == |names|;
  }

  lemma {:induction false} NonIncreasingSpan(r: seq<RankingRow>, i: nat, j: nat)
    requires NonIncreasing(r) && i <= j < |r|
    ensures r[i].count >= r[j].count
  {
    if i < j {
      NonIncreasingSpan(r, i, j - 1);
    }
  }

  /** Percentages never increase down the ranking. */
  lemma RankingPercentagesOrdered(db: Db, k: Kind, total: nat, i: nat, j: nat)
    requires Anchored(db) && total > 0
    requires i <= j < |Ranking(db, k)|
    ensures Hundredths(Ranking(db, k)[j].count, total) <= Hundredths(Ranking(db, k)[i].count, total)
  {
    RankingCorrect(db, k);
    var r := Ranking(db, k);
    NonIncreasingSpan(r, i, j);
    HundredthsMonotone(r[j].count, r[i].count, total);
  }

  /** The German adjective for each ranking category. */
  function TypeDe(k: Kind): string {
    match k
    case Said => "gesprochene"
    case Wrote => "geschriebene"
    case Assisted => "assistierte"
  }

  /** Line `i` of the ranking (0-based): `{i+1:02}.: name: count (pct%)`. */
  function RankingLine(i: nat, row: RankingRow, total: nat): string {
    Pad2(i + 1) + ".: " + row.name + ": " + Decimal(row.count) + " (" + PercentText(row.count, total) + "%)"
  }

  /** The reply of `get_ranking`: a header line, then one numbered line per row. */
  function RankingText(db: Db, k: Kind, total: nat): string
    requires Anchored(db)
  {
    var rows := Ranking(db, k);
    "Ranking " + TypeDe(k) + " Zitate:\n"
    + Join(seq(|rows|, i requires 0 <= i < |rows| => RankingLine(i, rows[i], total)), "\n")
  }

  /** Each ranking line starts with its two-digit position, which reads back as that position. */
  lemma RankingLineNumbered(i: nat, row: RankingRow, total: nat)
    requires i < 99
    ensures var line := RankingLine(i, row, total);
            && |line| >= 4 && line[2..4] == ".:"
            && AllDigits(line[..2]) && DigitsValue(line[..2]) == i + 1
  {
    Pad2Value(i + 1);
    var line := RankingLine(i, row, total);
    assert line[..2] == Pad2(i + 1);
  }

  // ---------------------------------------------------------------------------
  // Per-user statistics
  // ---------------------------------------------------------------------------

  /** `as u16` on a non-negative count: truncation to the low 16 bits. */
  function AsU16(n: nat): (r: nat)
    ensures r < 0x10000
    ensures n < 0x10000 ==> r == n
  {
    n % 0x10000
  }

  /** `SELECT count(->kind) FROM user`: no row when the user record does not exist. */
  function CountQuery(db: Db, userId: string, k: Kind): (r: Option<nat>)
    ensures r.Some? <==> HasUserId(db.users, userId)
    ensures r.Some? ==> r.value == Count(db.edges, OutOf(k, userId))
  {
    if HasUserId(db.users, userId) then Some(Count(db.edges, OutOf(k, userId))) else None
  }

  /** `unwrap_or(0) as u16`. */
  function OrZeroU16(r: Option<nat>): nat {
    match r
    case Some(n) => AsU16(n)
    case None => 0
  }

  datatype UserStats = UserStats(said: nat, wrote: nat, assisted: nat)

  /** The three independent counts of `get_user_stats` / `get_stats`. */
  function GetStats(db: Db, user: DbUser): (s: UserStats)
    ensures Anchored(db) ==>
              && s.said == AsU16(Count(db.edges, OutOf(Said, user.id)))
              && s.wrote == AsU16(Count(db.edges, OutOf(Wrote, user.id)))
              && s.assisted == AsU16(Count(db.edges, OutOf(Assisted, user.id)))
  {
    NoEdgesFromUnknown(db, user.id, Said);
    NoEdgesFromUnknown(db, user.id, Wrote);
    NoEdgesFromUnknown(db, user.id, Assisted);
    UserStats(OrZeroU16(CountQuery(db, user.id, Said)),
              OrZeroU16(CountQuery(db, user.id, Wrote)),
              OrZeroU16(CountQuery(db, user.id, Assisted)))
  }

  /** In an anchored database a record id that is no user has no edges. */
  lemma NoEdgesFromUnknown(db: Db, id: string, k: Kind)
    ensures Anchored(db) && !HasUserId(db.users, id) ==> Count(db.edges, OutOf(k, id)) == 0
  {
    CountPositive(db.edges, OutOf(k, id));
  }

  /** The reply of `get_user_stats`: the three counts with their percentages against the same total. */
  function StatsText(name: string, s: UserStats, total: nat): string {
    "Stats für " + name + ":\nGesagt: " + Decimal(s.said) + " (" + PercentText(s.said, total) + "%)"
    + "\nGeschrieben: " + Decimal(s.wrote) + " (" + PercentText(s.wrote, total) + "%)"
    + "\nAssisted: " + Decimal(s.assisted) + " (" + PercentText(s.assisted, total) + "%)"
  }

  /**
   * A recorded attribution shows in the statistics of that user: the count
   * of its kind goes up by one (modulo 2^16) and the other two stay.
   */
  lemma AttributionCounted(db: Db, t: QAType, user: DbUser, id: nat)
    requires Anchored(db) && user in db.users
    requires Edge(Said, user.id, id) !in db.edges && Edge(Assisted, user.id, id) !in db.edges
    ensures var after := GetStats(AddQa(db, t, user, id).0, user);
            var before := GetStats(db, user);
            && (if t == SaidClaim then after.said == AsU16(Count(db.edges, OutOf(Said, user.id)) + 1)
                else after.said == before.said)
            && (if t == AssistClaim then after.assisted == AsU16(Count(db.edges, OutOf(Assisted, user.id)) + 1)
                else after.assisted == before.assisted)
            && after.wrote == before.wrote
  {
    AddQaRecords(db, t, user, id, Said);
    AddQaRecords(db, t, user, id, Wrote);
    AddQaRecords(db, t, user, id, Assisted);
  }

  /** A recorded attribution keeps the database anchored and adds one to the user's count of its kind only. */
  lemma AddQaRecords(db: Db, t: QAType, user: DbUser, id: nat, k: Kind)
    requires Anchored(db) && user in db.users
    requires Edge(Said, user.id, id) !in db.edges && Edge(Assisted, user.id, id) !in db.edges
    ensures Anchored(AddQa(db, t, user, id).0)
    ensures Count(AddQa(db, t, user, id).0.edges, OutOf(k, user.id))
            == Count(db.edges, OutOf(k, user.id)) + (if k == EdgeKind(t) then 1 else 0)
  {
    var e := Edge(EdgeKind(t), user.id, id);
    var r := db.(edges := db.edges + [e]);
    assert AddQa(db, t, user, id).0 == r;
    forall x | x in r.edges ensures HasUserId(r.users, x.from) {
      if x != e {
        assert x in db.edges;
      }
    }
    CountSnoc(db.edges, e, OutOf(k, user.id));
  }

  /**
   * The statistics and the ranking agree: for a user whose name no other
   * user has, the edge count in the statistics equals the count of the
   * ranking row with that name.
   */
  lemma {:induction false} StatsMatchRanking(users: seq<DbUser>, edges: seq<Edge>, u: DbUser, k: Kind)
    requires Valid(Db(users, map[], edges))
    requires u in users && forall v :: v in users && v.name == u.name ==> v == u
    ensures Count(edges, OutOf(k, u.id)) == Occ(KindNames(users, edges, k), u.name)
  {
    if |edges| > 0 {
      var init, last := edges[..|edges| - 1], edges[|edges| - 1];
      assert Valid(Db(users, map[], init)) by {
        forall e | e in init ensures HasUserId(users, e.from) {
          assert e in edges;
        }
      }
      StatsMatchRanking(users, init, u, k);
      assert last in edges;
      NameMatchesId(users, last.from, u);
      var names := KindNames(users, init, k);
      if last.kind == k {
        assert KindNames(users, edges, k) == names + [NameOf(users, last.from)];
        OccSnoc(names, NameOf(users, last.from), u.name);
      } else {
        assert KindNames(users, edges, k) == names;
      }
    }
  }

  /** With unique ids and a unique name, an edge's user name is `u`'s name exactly when the edge starts at `u`. */
  lemma NameMatchesId(users: seq<DbUser>, from: string, u: DbUser)
    requires forall i, j :: 0 <= i < j < |users| ==> users[i].id != users[j].id
    requires HasUserId(users, from)
    requires u in users && forall v :: v in users && v.name == u.name ==> v == u
    ensures NameOf(users, from) == u.name <==> from == u.id
  {
    var v :| v in users && v.id == from;
    NameOfIs(users, v);
    if from == u.id {
      IdsIdentifyUsers(users, v, u);
    }
  }

  /** With unique record ids, a record id determines the user. */
  lemma IdsIdentifyUsers(users: seq<DbUser>, v: DbUser, u: DbUser)
    requires forall i, j :: 0 <= i < j < |users| ==> users[i].id != users[j].id
    requires v in users && u in users && v.id == u.id
    ensures v == u
  {
    var a :| 0 <= a < |users| && users[a] == v;
    var b :| 0 <= b < |users| && users[b] == u;
    assert !(a < b) && !(b < a);
  }

  // ---------------------------------------------------------------------------
  // The quotes a user said
  // ---------------------------------------------------------------------------

  const ZITAT_LINK_PREFIX: string := "https://discord.com/channels/422796692899758091/528316171389239296/"
  const ZITATE_SEPARATOR: string := "\n------------------\n"

  /** One row of `get_zitate`'s query: `string::slice(out, 6)` and `out.text`. */
  datatype ZitatItem = ZitatItem(msgId: string, text: string)

  /** The `said` edges of user `uid` point at stored quotes (otherwise `out.text` cannot be read). */
  ghost predicate SaidTargetsStored(db: Db, uid: string) {
    forall e :: e in db.edges && e.kind == Said && e.from == uid ==> e.to in db.quotes
  }

  /** `FROM {uid}->said`: one item per `said` edge of the user, in edge order. */
  function SaidItems(db: Db, uid: string, edges: seq<Edge>): (items: seq<ZitatItem>)
    requires forall e :: e in edges && e.kind == Said && e.from == uid ==> e.to in db.quotes
    ensures |items| == Count(edges, OutOf(Said, uid))
    ensures forall it :: it in items <==>
              exists e :: e in edges && e.kind == Said && e.from == uid && it == Item(db, e.to)
  {
    if |edges| == 0 then []
    else
      var init, last := edges[..|edges| - 1], edges[|edges| - 1];
      assert edges == init + [last];
      var rest := SaidItems(db, uid, init);
      if last.kind == Said && last.from == uid then rest + [Item(db, last.to)] else rest
  }

  /** The item for quote `q`: its record id with the 6-character `zitat:` cut off, and its text. */
  function Item(db: Db, q: nat): (it: ZitatItem)
    requires q in db.quotes
    ensures it.text == db.quotes[q]
    ensures q < U64_BOUND ==> ParseU64(it.msgId) == Some(q)
  {
    var recordId := ZitatRecordId(q);
    assert recordId[6..] == Decimal(q);
    var it := ZitatItem(recordId[6..], db.quotes[q]);
    if q < U64_BOUND then ParseDecimal(q); it else it
  }

  /** Insert an item before the first item whose id is not below it in string order. */
  function InsertByMsgId(x: ZitatItem, sorted: seq<ZitatItem>): seq<ZitatItem>
  {
    if |sorted| == 0 || LexLe(x.msgId, sorted[0].msgId) then [x] + sorted
    else [sorted[0]] + InsertByMsgId(x, sorted[1..])
  }

  /** `ORDER BY msg_id`: sort by the id string (so `"100"` comes before `"99"`). */
  function SortByMsgId(items: seq<ZitatItem>): seq<ZitatItem>
  {
    if |items| == 0 then [] else InsertByMsgId(items[0], SortByMsgId(items[1..]))
  }

  ghost predicate OrderedByMsgId(items: seq<ZitatItem>) {
    forall i :: 0 < i < |items| ==> LexLe(items[i - 1].msgId, items[i].msgId)
  }

  lemma {:induction false} InsertByMsgIdFacts(x: ZitatItem, s: seq<ZitatItem>)
    requires OrderedByMsgId(s)
    ensures var r := InsertByMsgId(x, s);
            && OrderedByMsgId(r)
            && multiset(r) == multiset(s) + multiset{x}
            && |r| > 0 && (r[0] == x || r[0] == s[0])
  {
    if |s| > 0 && !LexLe(x.msgId, s[0].msgId) {
      LexLeTotal(x.msgId, s[0].msgId);
      InsertByMsgIdFacts(x, s[1..]);
      var r := InsertByMsgId(x, s);
      assert r[1..] == InsertByMsgId(x, s[1..]);
      assert s == [s[0]] + s[1..];
    }
  }

  lemma {:induction false} SortByMsgIdFacts(items: seq<ZitatItem>)
    ensures OrderedByMsgId(SortByMsgId(items))
    ensures multiset(SortByMsgId(items)) == multiset(items)
  {
    if |items| > 0 {
      SortByMsgIdFacts(items[1..]);
      InsertByMsgIdFacts(items[0], SortByMsgId(items[1..]));
      assert items == [items[0]] + items[1..];
    }
  }

  /** `get_zitate`'s query: the user's `said` quotes ordered by id string. */
  function GetZitate(db: Db, user: DbUser): seq<ZitatItem>
    requires SaidTargetsStored(db, user.id)
  {
    SortByMsgId(SaidItems(db, user.id, db.edges))
  }

  /**
   * `get_zitate` lists exactly the quotes the user has a `said` edge to, one
   * item per edge, each with the quote's text and an id that parses back to
   * the quote's message id, ordered by id string.
   */
  lemma GetZitateCorrect(db: Db, user: DbUser)
    requires SaidTargetsStored(db, user.id)
    ensures var r := GetZitate(db, user);
            && OrderedByMsgId(r)
            && |r| == Count(db.edges, OutOf(Said, user.id))
            && (forall it :: it in r <==>
                  exists e :: e in db.edges && e.kind == Said && e.from == user.id && it == Item(db, e.to))
  {
    var items := SaidItems(db, user.id, db.edges);
    SortByMsgIdFacts(items);
    var r := GetZitate(db, user);
    assert |r| == |multiset(r)| == |multiset(items)| == |items|;
    assert forall it :: it in r <==> it in multiset(r);
    assert forall it :: it in items <==> it in multiset(items);
  }

  /** One entry of the reply: the text, a newline, then the link to the message. */
  function ZitatEntry(it: ZitatItem): string {
    it.text + "\n" + ZITAT_LINK_PREFIX + it.msgId
  }

  /** The reply of `get_zitate`: the entries joined by a dashed separator line. */
  function ZitateText(db: Db, user: DbUser): string
    requires SaidTargetsStored(db, user.id)
  {
    var items := GetZitate(db, user);
    Join(seq(|items|, i requires 0 <= i < |items| => ZitatEntry(items[i])), ZITATE_SEPARATOR)
  }
}

=== FILE: store.dfy ===
/**
 * The bot's database, held in memory: the `user` table, the `zitat` table and
 * the three edge tables `wrote`, `said` and `assisted` (user -> zitat), with
 * the operations the bot performs on them, each as a function from the old
 * database to the new one.
 */
module Store {
  import opened Wrappers
  import opened Text

  // ---------------------------------------------------------------------------
  // Entities
  // ---------------------------------------------------------------------------

  /** The three edge tables; they are also the three ranking categories (`RankingType`). */
  datatype Kind = Wrote | Said | Assisted

  /** What an attribution command asks to record (`QAType`). */
  datatype QAType = SaidClaim | AssistClaim

  /** The edge table an attribution of type `t` goes into. */
  function EdgeKind(t: QAType): (k: Kind)
    ensures k != Wrote
  {
    match t
    case SaidClaim => Said
    case AssistClaim => Assisted
  }

  /** A row of the `user` table (`DbUser`, `User`): record id `user:{n}`, display name, platform ids. */
  datatype DbUser = DbUser(id: string, name: string, uids: seq<nat>)

  /** An edge record `from -> kind -> zitat:{to}`; `from` is a user record id. */
  datatype Edge = Edge(kind: Kind, from: string, to: nat)

  /** The whole database: users in table order, quote texts by message id, edges in insertion order. */
  datatype Db = Db(users: seq<DbUser>, quotes: map<nat, string>, edges: seq<Edge>)

  const USER_PREFIX: string := "user:"
  const ZITAT_PREFIX: string := "zitat:"

  /** The record id `user:{n}` that `CREATE type::thing('user', n)` creates. */
  function UserRecordId(n: nat): string {
    USER_PREFIX + Decimal(n)
  }

  /** The record id `zitat:{n}` of the quote for message `n`. */
  function ZitatRecordId(n: nat): string {
    ZITAT_PREFIX + Decimal(n)
  }

  /** The number inside a record id `prefix{n}`, if it has that shape. */
  function RecordKey(prefix: string, recordId: string): Option<nat>
  {
    if |prefix| <= |recordId| && recordId[..|prefix|] == prefix then ParseU64(recordId[|prefix|..]) else None
  }

  /** `DbUser::new` / `User::new`: the record a first sighting of platform id `id` creates. */
  function NewUser(id: nat, name: string): (u: DbUser)
    requires id < U64_BOUND
    ensures u.name == name && u.uids == [id]
    ensures u.id == UserRecordId(id) && RecordKey(USER_PREFIX, u.id) == Some(id)
  {
    var u := DbUser(UserRecordId(id), name, [id]);
    assert u.id[..|USER_PREFIX|] == USER_PREFIX && u.id[|USER_PREFIX|..] == Decimal(id);
    ParseDecimal(id);
    u
  }

  /** Two different platform ids give two different user records. */
  lemma UserRecordIdInjective(m: nat, n: nat)
    requires UserRecordId(m) == UserRecordId(n)
    ensures m == n
  {
    assert Decimal(m) == UserRecordId(m)[|USER_PREFIX|..];
    DecimalInjective(m, n);
  }

  predicate HasUserId(users: seq<DbUser>, id: string) {
    exists u :: u in users && u.id == id
  }

  /**
   * The invariant of the database: user record ids are unique and every edge
   * starts at an existing user (so the ranking can read `in.name`).
   */
  ghost predicate Valid(db: Db) {
    && (forall i, j :: 0 <= i < j < |db.users| ==> db.users[i].id != db.users[j].id)
    && Anchored(db)
  }

  /** Every edge starts at an existing user. */
  ghost predicate Anchored(db: Db) {
    forall e :: e in db.edges ==> HasUserId(db.users, e.from)
  }

  // ---------------------------------------------------------------------------
  // Identity resolution
  // ---------------------------------------------------------------------------

  /** `Identifier`: a user is looked up either by a platform id or by display name. */
  datatype Identifier = Id(uid: nat) | Name(name: string)

  /** `From<&u64> for Identifier`. */
  function IdentifierFromU64(n: nat): (i: Identifier)
    ensures i.Id? && i.uid == n
  {
    Id(n)
  }

  /** `From<&String> for Identifier`. */
  function IdentifierFromString(s: string): (i: Identifier)
    ensures i.Name? && i.name == s
  {
    Name(s)
  }

  /** The `WHERE` clause of the two lookups: `$id IN uids`, or `name = $name`. */
  predicate Matches(u: DbUser, ident: Identifier) {
    match ident
    case Id(n) => n in u.uids
    case Name(s) => u.name == s
  }

  /** The rows a lookup selects, in table order. */
  function Matching(users: seq<DbUser>, ident: Identifier): (r: seq<DbUser>)
    ensures |r| <= |users|
    ensures forall u :: u in r <==> u in users && Matches(u, ident)
  {
    if |users| == 0 then []
    else (if Matches(users[0], ident) then [users[0]] else []) + Matching(users[1..], ident)
  }

  /**
   * The outcome of `.take(0)` into an `Option<User>`: no row, one row, or an
   * error because more than one row matched.
   */
  datatype Lookup = Found(user: DbUser) | NotFound | TooMany

  /** `user::get`: dispatch on the identifier, then select the single matching row. */
  function Get(users: seq<DbUser>, ident: Identifier): (r: Lookup)
    ensures r.Found? ==> r.user in users && Matches(r.user, ident)
    ensures r.Found? ==> forall u :: u in users && Matches(u, ident) ==> u == r.user
    ensures r.NotFound? <==> forall u :: u in users ==> !Matches(u, ident)
    ensures r.TooMany? <==> |Matching(users, ident)| >= 2
  {
    var rows := Matching(users, ident);
    if |rows| == 0 then NotFound
    else if |rows| == 1 then Found(rows[0])
    else
      assert rows[0] in users;
      TooMany
  }

  /** `get_user_from_db_by_uid`: the user whose platform ids contain `uid`. */
  function ByUid(users: seq<DbUser>, uid: nat): (r: Lookup)
    ensures r.Found? ==> r.user in users && uid in r.user.uids
    ensures r.NotFound? <==> forall u :: u in users ==> uid !in u.uids
  {
    Get(users, IdentifierFromU64(uid))
  }

  /** `get_user_from_db_by_name`: the user with exactly this display name. */
  function ByName(users: seq<DbUser>, name: string): (r: Lookup)
    ensures r.Found? ==> r.user in users && r.user.name == name
    ensures r.NotFound? <==> forall u :: u in users ==> u.name != name
  {
    Get(users, IdentifierFromString(name))
  }

  // ---------------------------------------------------------------------------
  // Counting edges
  // ---------------------------------------------------------------------------

  /** Which edges a count selects: a `None` component matches anything. */
  datatype EdgePattern = EdgePattern(kind: Option<Kind>, from: Option<string>, to: Option<nat>)

  predicate Fits(e: Edge, p: EdgePattern) {
    && (p.kind.None? || p.kind.value == e.kind)
    && (p.from.None? || p.from.value == e.from)
    && (p.to.None? || p.to.value == e.to)
  }

  /** All edges of one table (`FROM type::table(kind)`). */
  function OfKind(k: Kind): EdgePattern { EdgePattern(Some(k), None, None) }
  /** The edges `<-kind` of quote `q`. */
  function Into(k: Kind, q: nat): EdgePattern { EdgePattern(Some(k), None, Some(q)) }
  /** The edges `->kind` of user `uid`. */
  function OutOf(k: Kind, uid: string): EdgePattern { EdgePattern(Some(k), Some(uid), None) }
  /** The edges of one kind between one user and one quote. */
  function Between(k: Kind, uid: string, q: nat): EdgePattern { EdgePattern(Some(k), Some(uid), Some(q)) }

  /** The number of edge records that fit `p`. */
  function Count(edges: seq<Edge>, p: EdgePattern): (n: nat)
    ensures n <= |edges|
  {
    if |edges| == 0 then 0
    else Count(edges[..|edges| - 1], p) + (if Fits(edges[|edges| - 1], p) then 1 else 0)
  }

  /** Counting distributes over concatenation of edge lists. */
  lemma {:induction false} CountAppend(a: seq<Edge>, b: seq<Edge>, p: EdgePattern)
    ensures Count(a + b, p) == Count(a, p) + Count(b, p)
  {
    if |b| > 0 {
      assert (a + b)[..|a + b| - 1] == a + b[..|b| - 1];
      CountAppend(a, b[..|b| - 1], p);
    } else {
      assert a + b == a;
    }
  }

  /** A count is positive exactly when some edge fits. */
  lemma {:induction false} CountPositive(edges: seq<Edge>, p: EdgePattern)
    ensures Count(edges, p) > 0 <==> exists e :: e in edges && Fits(e, p)
  {
    if |edges| > 0 {
      var init := edges[..|edges| - 1];
      CountPositive(init, p);
      assert edges == init + [edges[|edges| - 1]];
    }
  }

  /** An edge `Between(k, uid, q)` fits exactly when it is that very edge record value. */
  lemma BetweenFits(edges: seq<Edge>, k: Kind, uid: string, q: nat)
    ensures Count(edges, Between(k, uid, q)) > 0 <==> Edge(k, uid, q) in edges
  {
    CountPositive(edges, Between(k, uid, q));
    if Edge(k, uid, q) in edges {
      assert Fits(Edge(k, uid, q), Between(k, uid, q));
    }
  }

  // ---------------------------------------------------------------------------
  // Users
  // ---------------------------------------------------------------------------

  /**
   * `add_user` / `user::add`: `CREATE type::thing('user', id) SET name, uids=[id]`.
   * Creating a record id that already exists fails inside the query and leaves
   * the database as it was.
   */
  function AddUser(db: Db, id: nat, name: string): (r: Db)
    requires id < U64_BOUND
    ensures HasUserId(r.users, UserRecordId(id))
    ensures r.quotes == db.quotes && r.edges == db.edges
    ensures HasUserId(db.users, UserRecordId(id)) ==> r == db
    ensures !HasUserId(db.users, UserRecordId(id)) ==> r.users == db.users + [NewUser(id, name)]
  {
    if HasUserId(db.users, UserRecordId(id)) then db
    else
      var r := db.(users := db.users + [NewUser(id, name)]);
      assert NewUser(id, name) in r.users;
      r
  }

  /** Adding a user keeps record ids unique and keeps every edge anchored. */
  lemma AddUserValid(db: Db, id: nat, name: string)
    requires id < U64_BOUND && Valid(db)
    ensures Valid(AddUser(db, id, name))
  {
    var r := AddUser(db, id, name);
    forall e | e in r.edges ensures HasUserId(r.users, e.from) {
      var u :| u in db.users && u.id == e.from;
      assert u in r.users;
    }
    if !HasUserId(db.users, UserRecordId(id)) {
      forall i | 0 <= i < |db.users| ensures db.users[i].id != UserRecordId(id) {
        assert db.users[i] in db.users;
      }
    }
  }

  /** Appending a row to the table appends it to the rows a lookup selects, if it matches. */
  lemma {:induction false} MatchingSnoc(users: seq<DbUser>, u: DbUser, ident: Identifier)
    ensures Matching(users + [u], ident) == Matching(users, ident) + (if Matches(u, ident) then [u] else [])
  {
    if |users| > 0 {
      assert (users + [u])[1..] == users[1..] + [u];
      MatchingSnoc(users[1..], u, ident);
    }
  }

  /** An author nobody knows yet, once added, is what the uid lookup finds. */
  lemma AddUserThenFound(db: Db, id: nat, name: string)
    requires id < U64_BOUND
    requires ByUid(db.users, id).NotFound? && !HasUserId(db.users, UserRecordId(id))
    ensures ByUid(AddUser(db, id, name).users, id) == Found(NewUser(id, name))
  {
    MatchingSnoc(db.users, NewUser(id, name), Id(id));
  }

  // ---------------------------------------------------------------------------
  // Registering, editing and removing quotes
  // ---------------------------------------------------------------------------

  /**
   * The author step of `register_zitat`: the user found by platform id, or,
   * when the lookup finds nobody or fails, a freshly added `user:{authorId}`.
   */
  function EnsureAuthor(db: Db, authorId: nat, authorName: string): (r: (Db, DbUser))
    requires authorId < U64_BOUND
    ensures HasUserId(r.0.users, r.1.id)
    ensures r.0.quotes == db.quotes && r.0.edges == db.edges
    ensures ByUid(db.users, authorId).Found? ==> r.0 == db && r.1 in db.users && authorId in r.1.uids
    ensures !ByUid(db.users, authorId).Found? ==>
              r.0 == AddUser(db, authorId, authorName) && r.1 == NewUser(authorId, authorName)
  {
    match ByUid(db.users, authorId)
    case Found(u) => (db, u)
    case _ => (AddUser(db, authorId, authorName), NewUser(authorId, authorName))
  }

  /**
   * The query of `register_zitat`: `CREATE zitat:{msgId}` with the text, then
   * `RELATE author->wrote->zitat:{msgId}`. The two statements are independent:
   * if the quote exists already, the CREATE fails and keeps the old text while
   * the RELATE still adds an edge.
   */
  function CreateZitat(db: Db, msgId: nat, text: string, author: string): (r: Db)
    ensures r.users == db.users && r.edges == db.edges + [Edge(Wrote, author, msgId)]
    ensures msgId in r.quotes && r.quotes.Keys == db.quotes.Keys + {msgId}
    ensures msgId !in db.quotes ==> r.quotes[msgId] == text
    ensures forall q :: q in db.quotes ==> r.quotes[q] == db.quotes[q]
  {
    db.(quotes := if msgId in db.quotes then db.quotes else db.quotes[msgId := text],
        edges := db.edges + [Edge(Wrote, author, msgId)])
  }

  /** The database part of `register_zitat`: ensure the author, then create the quote and its `wrote` edge. */
  function Register(db: Db, msgId: nat, authorId: nat, authorName: string, text: string): Db
    requires authorId < U64_BOUND
  {
    var (db1, author) := EnsureAuthor(db, authorId, authorName);
    CreateZitat(db1, msgId, text, author.id)
  }

  /**
   * Registering a new message stores exactly its text and exactly one `wrote`
   * edge, from a user that carries the author's platform id, and no other
   * edges into it; everything already stored stays, and the database stays valid.
   */
  lemma RegisterFresh(db: Db, msgId: nat, authorId: nat, authorName: string, text: string)
    requires authorId < U64_BOUND && Valid(db)
    requires msgId !in db.quotes && Count(db.edges, EdgePattern(None, None, Some(msgId))) == 0
    ensures var r := Register(db, msgId, authorId, authorName, text);
            && Valid(r)
            && r.quotes == db.quotes[msgId := text]
            && Count(r.edges, Into(Wrote, msgId)) == 1
            && Count(r.edges, Into(Said, msgId)) == 0
            && Count(r.edges, Into(Assisted, msgId)) == 0
            && r.edges == db.edges + [Edge(Wrote, AuthorRecordId(db, authorId), msgId)]
  {
    var (db1, author) := EnsureAuthor(db, authorId, authorName);
    AddUserValid(db, authorId, authorName);
    var r := Register(db, msgId, authorId, authorName, text);
    var w := Edge(Wrote, author.id, msgId);
    assert r.edges == db.edges + [w];
    CountAppend(db.edges, [w], Into(Wrote, msgId));
    CountAppend(db.edges, [w], Into(Said, msgId));
    CountAppend(db.edges, [w], Into(Assisted, msgId));
    assert [w][..0] == [];
    NothingInto(db.edges, msgId, Wrote);
    NothingInto(db.edges, msgId, Said);
    NothingInto(db.edges, msgId, Assisted);
  }

  /**
   * The record the `wrote` edge starts at: the user the uid lookup found, or
   * else `user:{authorId}`.
   */
  function AuthorRecordId(db: Db, authorId: nat): string {
    match ByUid(db.users, authorId)
    case Found(u) => u.id
    case _ => UserRecordId(authorId)
  }

  /** No edge at all into `q` means no edge of any particular kind into it. */
  lemma NothingInto(edges: seq<Edge>, q: nat, k: Kind)
    requires Count(edges, EdgePattern(None, None, Some(q))) == 0
    ensures Count(edges, Into(k, q)) == 0
  {
    CountPositive(edges, EdgePattern(None, None, Some(q)));
    CountPositive(edges, Into(k, q));
    if Count(edges, Into(k, q)) > 0 {
      var e :| e in edges && Fits(e, Into(k, q));
      assert Fits(e, EdgePattern(None, None, Some(q)));
    }
  }

  /** Registering keeps the database valid, whether or not the message was known. */
  lemma RegisterValid(db: Db, msgId: nat, authorId: nat, authorName: string, text: string)
    requires authorId < U64_BOUND && Valid(db)
    ensures Valid(Register(db, msgId, authorId, authorName, text))
  {
    var (db1, author) := EnsureAuthor(db, authorId, authorName);
    AddUserValid(db, authorId, authorName);
    var r := Register(db, msgId, authorId, authorName, text);
    forall e | e in r.edges ensures HasUserId(r.users, e.from) {
      if e !in db1.edges {
        assert e == Edge(Wrote, author.id, msgId);
      }
    }
  }

  /** The edges that do not point at quote `q`, in their original order. */
  function EdgesNotInto(edges: seq<Edge>, q: nat): (r: seq<Edge>)
    ensures |r| <= |edges|
    ensures forall e :: e in r <==> e in edges && e.to != q
  {
    if |edges| == 0 then []
    else
      var init := EdgesNotInto(edges[..|edges| - 1], q);
      var last := edges[|edges| - 1];
      assert edges == edges[..|edges| - 1] + [last];
      if last.to == q then init else init + [last]
  }

  /** Counting after the cascade: nothing into `q` is left, every other count is kept. */
  lemma {:induction false} CountNotInto(edges: seq<Edge>, q: nat, p: EdgePattern)
    ensures p.to == Some(q) ==> Count(EdgesNotInto(edges, q), p) == 0
    ensures p.to.Some? && p.to != Some(q) ==> Count(EdgesNotInto(edges, q), p) == Count(edges, p)
    ensures p.to.None? ==>
              Count(EdgesNotInto(edges, q), p) == Count(edges, p) - Count(edges, p.(to := Some(q)))
  {
    if |edges| > 0 {
      var init := edges[..|edges| - 1];
      var last := edges[|edges| - 1];
      CountNotInto(init, q, p);
      var r0 := EdgesNotInto(init, q);
      if last.to != q {
        CountAppend(r0, [last], p);
        assert (r0 + [last])[..|r0|] == r0;
      }
    }
  }

  /**
   * `remove_zitat`'s transaction: delete `zitat:{id}` and every `wrote`,
   * `said` and `assisted` edge whose `out` is that quote.
   */
  function RemoveZitat(db: Db, id: nat): (r: Db)
    ensures r.users == db.users
    ensures r.quotes == db.quotes - {id}
    ensures forall e :: e in r.edges <==> e in db.edges && e.to != id
  {
    db.(quotes := db.quotes - {id}, edges := EdgesNotInto(db.edges, id))
  }

  /**
   * Removal cascades: no edge of any kind points at the removed quote, each
   * table loses exactly the edges it had into it, and every other quote keeps
   * its text and its edges. The database stays valid.
   */
  lemma RemoveCascades(db: Db, id: nat, k: Kind, q: nat)
    requires Valid(db)
    ensures var r := RemoveZitat(db, id);
            && Valid(r)
            && id !in r.quotes
            && Count(r.edges, Into(k, id)) == 0
            && Count(r.edges, OfKind(k)) == Count(db.edges, OfKind(k)) - Count(db.edges, Into(k, id))
            && (q != id ==> Count(r.edges, Into(k, q)) == Count(db.edges, Into(k, q)))
            && (q != id ==> (q in r.quotes <==> q in db.quotes))
            && (q != id && q in db.quotes ==> r.quotes[q] == db.quotes[q])
  {
    CountNotInto(db.edges, id, Into(k, id));
    CountNotInto(db.edges, id, OfKind(k));
    assert OfKind(k).(to := Some(id)) == Into(k, id);
    CountNotInto(db.edges, id, Into(k, q));
  }

  /** The outcome of `message_update` on the database. */
  datatype EditOutcome =
    | Unchanged   // the stored text equals the new content
    | Replaced    // the stored text was replaced
    | Crashed     // an `unwrap` on a missing old text or missing new content panicked first

  /**
   * `message_update` for a message in the quotes channel: compare the stored
   * text (`None` if there is no such quote) with the new content (`None` if
   * the event carries none); equal means nothing to do, otherwise both must be
   * present and the stored text is replaced.
   */
  function EditZitat(db: Db, id: nat, content: Option<string>): (r: (Db, EditOutcome))
    ensures r.0.users == db.users && r.0.edges == db.edges
    ensures r.1.Replaced? <==> id in db.quotes && content.Some? && content.value != db.quotes[id]
    ensures r.1.Replaced? ==> r.0.quotes == db.quotes[id := content.value]
    ensures !r.1.Replaced? ==> r.0 == db
    ensures r.1.Unchanged? <==> (if id in db.quotes then content == Some(db.quotes[id]) else content.None?)
  {
    var oldText := if id in db.quotes then Some(db.quotes[id]) else None;
    if oldText == content then (db, Unchanged)
    else if content.None? || oldText.None? then (db, Crashed)
    else (db.(quotes := db.quotes[id := content.value]), Replaced)
  }

  /** An edit never touches another quote, and applying the same edit twice changes nothing the second time. */
  lemma EditLocalAndIdempotent(db: Db, id: nat, content: Option<string>, q: nat)
    ensures var r := EditZitat(db, id, content).0;
            && (q != id ==> (q in r.quotes <==> q in db.quotes))
            && (q != id && q in db.quotes ==> r.quotes[q] == db.quotes[q])
            && (EditZitat(db, id, content).1.Replaced? ==> EditZitat(r, id, content) == (r, Unchanged))
  {
  }

  // ---------------------------------------------------------------------------
  // Attribution: `add_qa`
  // ---------------------------------------------------------------------------

  const ALREADY_RECORDED: string := "Der ist dafür bereits eingetragen."
  /** Sent when a `said` edge exists and an assist is requested (wording as in the source). */
  const SAID_EXISTS: string := "Der hat schon einen Assist für das Zitat."
  /** Sent when an `assisted` edge exists and `said` is requested (wording as in the source). */
  const ASSISTED_EXISTS: string := "Der hat das Zitat schon gesagt."

  function RecordedMessage(name: string): string {
    name + " erfolgreich hinzugefügt."
  }

  /** The four branches of `add_qa`, given the two flags it reads. */
  function QaReply(t: QAType, alreadySaid: bool, alreadyAssisted: bool, name: string): string
  {
    if (alreadySaid && t == SaidClaim) || (alreadyAssisted && t == AssistClaim) then ALREADY_RECORDED
    else if alreadySaid && t == AssistClaim then SAID_EXISTS
    else if alreadyAssisted && t == SaidClaim then ASSISTED_EXISTS
    else RecordedMessage(name)
  }

  /** What `add_qa` does after its two reads: relate only on the last branch. */
  function QaApply(db: Db, t: QAType, user: DbUser, id: nat, alreadySaid: bool, alreadyAssisted: bool): (Db, string)
  {
    var reply := QaReply(t, alreadySaid, alreadyAssisted, user.name);
    if !alreadySaid && !alreadyAssisted then
      (db.(edges := db.edges + [Edge(EdgeKind(t), user.id, id)]), reply)
    else (db, reply)
  }

  /** The edge kind an attribution of type `t` conflicts with. */
  function OtherKind(t: QAType): Kind {
    match t
    case SaidClaim => Assisted
    case AssistClaim => Said
  }

  /** `add_qa` in `src/db/mod.rs`: it reads the `said` and the `assisted` edge of (user, quote). */
  function AddQa(db: Db, t: QAType, user: DbUser, id: nat): (r: (Db, string))
    ensures var requested := Edge(EdgeKind(t), user.id, id) in db.edges;
            var other := Edge(OtherKind(t), user.id, id) in db.edges;
            && (requested ==> r == (db, ALREADY_RECORDED))
            && (!requested && other ==>
                  r == (db, if t == AssistClaim then SAID_EXISTS else ASSISTED_EXISTS))
            && (!requested && !other ==>
                  r == (db.(edges := db.edges + [Edge(EdgeKind(t), user.id, id)]), RecordedMessage(user.name)))
  {
    QaApply(db, t, user, id, Edge(Said, user.id, id) in db.edges, Edge(Assisted, user.id, id) in db.edges)
  }

  /**
   * `add_qa` in `src/main.rs`: both flags are read from the `said` table, so
   * an existing `assisted` edge is never seen.
   */
  function AddQaUnfixed(db: Db, t: QAType, user: DbUser, id: nat): (r: (Db, string))
    ensures Edge(Said, user.id, id) in db.edges ==> r == (db, ALREADY_RECORDED)
    ensures Edge(Said, user.id, id) !in db.edges ==>
              r == (db.(edges := db.edges + [Edge(EdgeKind(t), user.id, id)]), RecordedMessage(user.name))
  {
    var alreadySaid := Edge(Said, user.id, id) in db.edges;
    var alreadyAssisted := Edge(Said, user.id, id) in db.edges;
    QaApply(db, t, user, id, alreadySaid, alreadyAssisted)
  }

  /**
   * The two variants agree when the pair has no `assisted` edge, unless a
   * `said` edge exists and an assist is asked for (the main.rs variant then
   * answers ALREADY_RECORDED instead of SAID_EXISTS).
   */
  lemma AddQaVariantsAgree(db: Db, t: QAType, user: DbUser, id: nat)
    requires Edge(Assisted, user.id, id) !in db.edges
    requires t == SaidClaim || Edge(Said, user.id, id) !in db.edges
    ensures AddQaUnfixed(db, t, user, id) == AddQa(db, t, user, id)
  {
  }

  /**
   * The dedupe guarantee: for every (user, quote) pair at most one `said`
   * edge, at most one `assisted` edge, and never both.
   */
  ghost predicate AttributionsExclusive(edges: seq<Edge>) {
    forall uid: string, q: nat ::
      && Count(edges, Between(Said, uid, q)) <= 1
      && Count(edges, Between(Assisted, uid, q)) <= 1
      && (Count(edges, Between(Said, uid, q)) == 0 || Count(edges, Between(Assisted, uid, q)) == 0)
  }

  /** Adding one edge changes only the count of the patterns it fits, by one. */
  lemma CountSnoc(edges: seq<Edge>, e: Edge, p: EdgePattern)
    ensures Count(edges + [e], p) == Count(edges, p) + (if Fits(e, p) then 1 else 0)
  {
    assert (edges + [e])[..|edges|] == edges;
  }

  /** Attribution through the corrected `add_qa` keeps the dedupe guarantee. */
  lemma AddQaKeepsExclusive(db: Db, t: QAType, user: DbUser, id: nat)
    requires AttributionsExclusive(db.edges)
    ensures AttributionsExclusive(AddQa(db, t, user, id).0.edges)
  {
    var r := AddQa(db, t, user, id).0;
    var e := Edge(EdgeKind(t), user.id, id);
    if r != db {
      assert r.edges == db.edges + [e];
      BetweenFits(db.edges, EdgeKind(t), user.id, id);
      BetweenFits(db.edges, OtherKind(t), user.id, id);
      forall uid: string, q: nat
        ensures && Count(r.edges, Between(Said, uid, q)) <= 1
                && Count(r.edges, Between(Assisted, uid, q)) <= 1
                && (Count(r.edges, Between(Said, uid, q)) == 0 || Count(r.edges, Between(Assisted, uid, q)) == 0)
      {
        CountSnoc(db.edges, e, Between(Said, uid, q));
        CountSnoc(db.edges, e, Between(Assisted, uid, q));
      }
    }
  }

  /** Scenario: asking twice for the same `said` records it once, then reports it as already recorded. */
  lemma SaidTwice(db: Db, user: DbUser, id: nat)
    requires Edge(Said, user.id, id) !in db.edges && Edge(Assisted, user.id, id) !in db.edges
    ensures var (db1, reply1) := AddQa(db, SaidClaim, user, id);
            var (db2, reply2) := AddQa(db1, SaidClaim, user, id);
            && reply1 == RecordedMessage(user.name)
            && reply2 == ALREADY_RECORDED && db2 == db1
            && Count(db2.edges, Between(Said, user.id, id)) == 1
  {
    var db1 := AddQa(db, SaidClaim, user, id).0;
    assert Edge(Said, user.id, id) in db1.edges;
    BetweenFits(db.edges, Said, user.id, id);
    CountSnoc(db.edges, Edge(Said, user.id, id), Between(Said, user.id, id));
  }

  /**
   * A claim of the other kind after a recorded one is a conflict, reported
   * with the source's wording: `said` first gives SAID_EXISTS, `assisted`
   * first gives ASSISTED_EXISTS; the database is left as it was.
   */
  lemma ConflictAfterRecorded(db: Db, t: QAType, user: DbUser, id: nat)
    requires Edge(Said, user.id, id) !in db.edges && Edge(Assisted, user.id, id) !in db.edges
    ensures var (db1, _) := AddQa(db, t, user, id);
            var second := if t == SaidClaim then AssistClaim else SaidClaim;
            AddQa(db1, second, user, id) == (db1, if t == SaidClaim then SAID_EXISTS else ASSISTED_EXISTS)
  {
    var db1 := AddQa(db, t, user, id).0;
    assert Edge(EdgeKind(t), user.id, id) in db1.edges;
  }

  /**
   * The flaw of the `src/main.rs` variant: with an `assisted` edge already
   * stored, asking for another assist relates a second one, and asking for
   * `said` relates a `said` edge beside it, breaking the dedupe guarantee.
   */
  lemma AddQaUnfixedBreaksExclusive(db: Db, user: DbUser, id: nat)
    requires Edge(Said, user.id, id) !in db.edges && Edge(Assisted, user.id, id) in db.edges
    ensures Count(AddQaUnfixed(db, AssistClaim, user, id).0.edges, Between(Assisted, user.id, id)) >= 2
    ensures var r := AddQaUnfixed(db, SaidClaim, user, id).0.edges;
            Edge(Said, user.id, id) in r && Edge(Assisted, user.id, id) in r
    ensures AddQa(db, AssistClaim, user, id) == (db, ALREADY_RECORDED)
    ensures AddQa(db, SaidClaim, user, id) == (db, ASSISTED_EXISTS)
  {
    var e := Edge(Assisted, user.id, id);
    BetweenFits(db.edges, Assisted, user.id, id);
    CountSnoc(db.edges, e, Between(Assisted, user.id, id));
  }

  // ---------------------------------------------------------------------------
  // The `fertig` gate and the startup count
  // ---------------------------------------------------------------------------

  /**
   * `fertig`: the thread may be closed when the count of `said` edges into
   * the quote record is positive. The count is taken `FROM` the record, so a
   * quote without a record never opens the gate.
   */
  function MayClose(db: Db, id: nat): (ok: bool)
    ensures ok <==> id in db.quotes && exists e :: e in db.edges && e.kind == Said && e.to == id
  {
    CountPositive(db.edges, Into(Said, id));
    id in db.quotes && Count(db.edges, Into(Said, id)) > 0
  }

  /** Once a `said` attribution is recorded for a stored quote, its thread may be closed. */
  lemma RecordedSaidOpensGate(db: Db, user: DbUser, id: nat)
    requires Edge(Said, user.id, id) !in db.edges && Edge(Assisted, user.id, id) !in db.edges
    ensures MayClose(AddQa(db, SaidClaim, user, id).0, id) <==> id in db.quotes
  {
    assert Edge(Said, user.id, id) in AddQa(db, SaidClaim, user, id).0.edges;
  }

  /** `SELECT count() FROM zitat GROUP BY count`: one group holding the count, or no row at all when the table is empty. */
  function QuoteCountQuery(quotes: map<nat, string>): (r: Option<nat>)
    ensures r.None? <==> quotes == map[]
  {
    if |quotes| == 0 then None else Some(|quotes|)
  }

  /** The startup value of `OVERALL_ZITATE_COUNT`: the queried count, 0 when there is none. */
  function InitialCount(queried: Option<nat>): nat {
    match queried
    case Some(n) => n
    case None => 0
  }

  /** At startup the counter equals the number of stored quotes. */
  lemma InitialCountIsQuoteCount(quotes: map<nat, string>)
    ensures InitialCount(QuoteCountQuery(quotes)) == |quotes|
  {
  }
}

=== FILE: text.dfy ===
/**
 * The string operations the bot relies on: Rust's `str::trim` and `split(" ")`,
 * `Vec<String>::join`, decimal formatting of integers (`{}` and `{:02}`),
 * `str::parse::<u64>` and the lexicographic order of strings.
 */
module Text {
  import opened Wrappers

  /** 2^64: every Discord id is a `u64`, so it lies below this bound. */
  const U64_BOUND: nat := 0x1_0000_0000_0000_0000

  // ---------------------------------------------------------------------------
  // Whitespace and trimming
  // ---------------------------------------------------------------------------

  /** Rust's `char::is_whitespace`: the Unicode White_Space property. */
  predicate IsWhitespace(c: char) {
    || c == '\t' || c == '\n' || c == '\U{B}' || c == '\U{C}' || c == '\r' || c == ' '
    || c == '\U{85}' || c == '\U{A0}' || c == '\U{1680}'
    || ('\U{2000}' <= c <= '\U{200A}')
    || c == '\U{2028}' || c == '\U{2029}' || c == '\U{202F}' || c == '\U{205F}' || c == '\U{3000}'
  }

  /** `str::trim_start`: the longest suffix of `s` that does not begin with whitespace. */
  function TrimStart(s: string): (r: string)
    ensures |r| <= |s| && r == s[|s| - |r|..]
    ensures forall k :: 0 <= k < |s| - |r| ==> IsWhitespace(s[k])
    ensures |r| > 0 ==> !IsWhitespace(r[0])
  {
    if |s| > 0 && IsWhitespace(s[0]) then TrimStart(s[1..]) else s
  }

  /** `str::trim_end`: the longest prefix of `s` that does not end with whitespace. */
  function TrimEnd(s: string): (r: string)
    ensures |r| <= |s| && r == s[..|r|]
    ensures forall k :: |r| <= k < |s| ==> IsWhitespace(s[k])
    ensures |r| > 0 ==> !IsWhitespace(r[|r| - 1])
  {
    if |s| > 0 && IsWhitespace(s[|s| - 1]) then TrimEnd(s[..|s| - 1]) else s
  }

  /** `str::trim`: `s` without its leading and trailing whitespace. */
  function Trim(s: string): (r: string)
  {
    TrimEnd(TrimStart(s))
  }

  /** The trimmed string neither starts nor ends with whitespace. */
  lemma TrimIsTight(s: string)
    ensures |Trim(s)| > 0 ==> !IsWhitespace(Trim(s)[0]) && !IsWhitespace(Trim(s)[|Trim(s)| - 1])
  {
    var t := TrimStart(s);
    var e := TrimEnd(t);
    if |e| > 0 {
      assert e[0] == t[0];
    }
  }

  /** A string that neither starts nor ends with whitespace is its own trim. */
  lemma TrimOfTight(s: string)
    requires |s| > 0 ==> !IsWhitespace(s[0]) && !IsWhitespace(s[|s| - 1])
    ensures Trim(s) == s
  {
  }

  /** Trimming twice is trimming once. */
  lemma TrimIdempotent(s: string)
    ensures Trim(Trim(s)) == Trim(s)
  {
    TrimIsTight(s);
    TrimOfTight(Trim(s));
  }

  predicate AllWhitespace(s: string) {
    forall k :: 0 <= k < |s| ==> IsWhitespace(s[k])
  }

  /** When `s` holds a non-whitespace character, `trim_start` of `s + q` stops inside `s`. */
  lemma {:induction false} TrimStartKeepsTail(s: string, q: string)
    requires !AllWhitespace(s)
    ensures TrimStart(s + q) == TrimStart(s) + q
  {
    assert (s + q)[0] == s[0];
    if IsWhitespace(s[0]) {
      var k :| 0 <= k < |s| && !IsWhitespace(s[k]);
      assert !IsWhitespace(s[1..][k - 1]);
      assert (s + q)[1..] == s[1..] + q;
      TrimStartKeepsTail(s[1..], q);
    }
  }

  /** Leading whitespace in front of `q` is dropped by `trim_start`. */
  lemma {:induction false} TrimStartSkips(p: string, q: string)
    requires AllWhitespace(p)
    ensures TrimStart(p + q) == TrimStart(q)
  {
    if |p| > 0 {
      assert (p + q)[0] == p[0];
      assert (p + q)[1..] == p[1..] + q;
      assert AllWhitespace(p[1..]) by {
        forall k | 0 <= k < |p| - 1 ensures IsWhitespace(p[1..][k]) {
          assert p[1..][k] == p[k + 1];
        }
      }
      TrimStartSkips(p[1..], q);
    } else {
      assert p + q == q;
    }
  }

  /** Trailing whitespace after `s` is dropped by `trim_end`. */
  lemma {:induction false} TrimEndSkips(s: string, q: string)
    requires AllWhitespace(q)
    ensures TrimEnd(s + q) == TrimEnd(s)
  {
    if |q| > 0 {
      var q0 := q[..|q| - 1];
      assert (s + q)[..|s + q| - 1] == s + q0;
      TrimEndSkips(s, q0);
    } else {
      assert s + q == s;
    }
  }

  /** Surrounding a string with whitespace does not change its trim. */
  lemma TrimPadded(p: string, s: string, q: string)
    requires AllWhitespace(p) && AllWhitespace(q)
    ensures Trim(p + s + q) == Trim(s)
  {
    assert p + s + q == p + (s + q);
    TrimStartSkips(p, s + q);
    assert TrimStart(p + s + q) == TrimStart(s + q);
    if AllWhitespace(s) {
      TrimStartSkips(s, q);
      TrimStartSkips(q, "");
      TrimStartSkips(s, "");
      assert q + "" == q && s + "" == s;
      assert TrimStart(s + q) == "" && TrimStart(s) == "";
    } else {
      TrimStartKeepsTail(s, q);
      TrimEndSkips(TrimStart(s), q);
    }
  }

  // ---------------------------------------------------------------------------
  // Splitting and joining
  // ---------------------------------------------------------------------------

  /**
   * `str::split` on a one-character separator: the pieces between the
   * occurrences of `c`, empty pieces included; the empty string gives one
   * empty piece.
   */
  function Split(s: string, c: char): (r: seq<string>)
    ensures |r| >= 1
  {
    if |s| == 0 then [""]
    else if s[0] == c then [""] + Split(s[1..], c)
    else
      var rest := Split(s[1..], c);
      [[s[0]] + rest[0]] + rest[1..]
  }

  /** No piece of a split holds the separator. */
  lemma {:induction false} SplitPiecesFree(s: string, c: char)
    ensures forall i :: 0 <= i < |Split(s, c)| ==> c !in Split(s, c)[i]
  {
    if |s| > 0 {
      SplitPiecesFree(s[1..], c);
    }
  }

  /** `[String]::join`: the parts with `sep` between each neighbouring pair. */
  function Join(parts: seq<string>, sep: string): string
  {
    if |parts| == 0 then ""
    else if |parts| == 1 then parts[0]
    else parts[0] + sep + Join(parts[1..], sep)
  }

  /** Joining a non-empty list is its head followed by the joined tail, separated when the tail is non-empty. */
  lemma JoinCons(head: string, tail: seq<string>, sep: string)
    ensures Join([head] + tail, sep) == if |tail| == 0 then head else head + sep + Join(tail, sep)
  {
    assert ([head] + tail)[1..] == tail;
  }

  /** `Split` on a string given as its first character and the rest. */
  lemma SplitCons(x: char, t: string, c: char)
    ensures Split([x] + t, c) == if x == c then [""] + Split(t, c) else [[x] + Split(t, c)[0]] + Split(t, c)[1..]
  {
    assert ([x] + t)[1..] == t;
  }

  /** Splitting and re-joining with the same separator gives back the input. */
  lemma {:induction false} JoinSplit(s: string, c: char)
    ensures Join(Split(s, c), [c]) == s
  {
    if |s| > 0 {
      var t := s[1..];
      assert s == [s[0]] + t;
      SplitCons(s[0], t, c);
      JoinSplit(t, c);
      var r := Split(t, c);
      if s[0] == c {
        JoinCons("", r, [c]);
        assert "" + [c] + t == s;
      } else {
        assert r == [r[0]] + r[1..];
        JoinCons(r[0], r[1..], [c]);
        JoinCons([s[0]] + r[0], r[1..], [c]);
      }
    }
  }

  /** Joining pieces that do not hold the separator and splitting again gives back the pieces. */
  lemma {:induction false} SplitJoin(parts: seq<string>, c: char)
    requires |parts| >= 1 && forall i :: 0 <= i < |parts| ==> c !in parts[i]
    ensures Split(Join(parts, [c]), c) == parts
  {
    if |parts| == 1 {
      SplitNoSeparator(parts[0], c);
    } else {
      var tail := parts[1..];
      forall i | 0 <= i < |tail| ensures c !in tail[i] {
        assert tail[i] == parts[i + 1];
      }
      SplitJoin(tail, c);
      var rest := Join(tail, [c]);
      assert Join(parts, [c]) == parts[0] + [c] + rest;
      SplitAfterWord(parts[0], c, rest);
      assert parts == [parts[0]] + tail;
    }
  }

  /** A join ends with the last piece's last character. */
  lemma {:induction false} JoinLast(parts: seq<string>, sep: string)
    requires |parts| >= 1 && |parts[|parts| - 1]| > 0
    ensures var j := Join(parts, sep);
            |j| > 0 && j[|j| - 1] == parts[|parts| - 1][|parts[|parts| - 1]| - 1]
  {
    if |parts| > 1 {
      JoinLast(parts[1..], sep);
    }
  }

  /** A join starts with the first piece's first character and ends with the last piece's last one. */
  lemma JoinEnds(parts: seq<string>, sep: string)
    requires |parts| >= 1 && |parts[0]| > 0 && |parts[|parts| - 1]| > 0
    ensures var j := Join(parts, sep);
            && |j| > 0 && j[0] == parts[0][0]
            && j[|j| - 1] == parts[|parts| - 1][|parts[|parts| - 1]| - 1]
  {
    JoinLast(parts, sep);
  }

  /** A string without the separator is a single piece. */
  lemma {:induction false} SplitNoSeparator(s: string, c: char)
    requires c !in s
    ensures Split(s, c) == [s]
  {
    if |s| > 0 {
      SplitNoSeparator(s[1..], c);
      assert [s[0]] + s[1..] == s;
    }
  }

  /** A piece without the separator, the separator, then `b`: that piece comes first, then the pieces of `b`. */
  lemma {:induction false} SplitAfterWord(a: string, c: char, b: string)
    requires c !in a
    ensures Split(a + [c] + b, c) == [a] + Split(b, c)
  {
    if |a| == 0 {
      assert a + [c] + b == [c] + b;
      SplitCons(c, b, c);
    } else {
      var x, rest := a[0], a[1..];
      assert a + [c] + b == [x] + (rest + [c] + b);
      assert a == [x] + rest;
      SplitAfterWord(rest, c, b);
      SplitCons(x, rest + [c] + b, c);
    }
  }

  // ---------------------------------------------------------------------------
  // Decimal formatting and parsing
  // ---------------------------------------------------------------------------

  predicate IsDigit(c: char) {
    '0' <= c <= '9'
  }

  predicate AllDigits(s: string) {
    forall i :: 0 <= i < |s| ==> IsDigit(s[i])
  }

  function DigitChar(d: nat): (c: char)
    requires d < 10
    ensures IsDigit(c) && c as int - '0' as int == d
  {
    (d + '0' as int) as char
  }

  /** `{}` on an unsigned integer: its decimal digits, most significant first, without leading zeros. */
  function Decimal(n: nat): (s: string)
    ensures |s| >= 1 && AllDigits(s)
    ensures |s| > 1 ==> s[0] != '0'
  {
    if n < 10 then [DigitChar(n)] else Decimal(n / 10) + [DigitChar(n % 10)]
  }

  /** The number a string of decimal digits denotes. */
  function DigitsValue(s: string): nat
    requires AllDigits(s)
  {
    if |s| == 0 then 0 else DigitsValue(s[..|s| - 1]) * 10 + (s[|s| - 1] as int - '0' as int)
  }

  /**
   * `str::parse::<u64>`: an optional `+`, then one or more decimal digits
   * whose value fits in 64 bits; anything else is an error (`None`).
   */
  function ParseU64(s: string): (r: Option<nat>)
    ensures r.Some? ==> r.value < U64_BOUND
  {
    var digits := if |s| > 0 && s[0] == '+' then s[1..] else s;
    if |digits| == 0 || !AllDigits(digits) then None
    else
      var v := DigitsValue(digits);
      if v < U64_BOUND then Some(v) else None
  }

  /** The digits of `Decimal(n)` denote `n`. */
  lemma {:induction false} DecimalValue(n: nat)
    ensures DigitsValue(Decimal(n)) == n
  {
    if n >= 10 {
      DecimalValue(n / 10);
      var s := Decimal(n);
      assert s[..|s| - 1] == Decimal(n / 10);
    }
  }

  /** Formatting a `u64` and parsing it back gives the same number. */
  lemma ParseDecimal(n: nat)
    requires n < U64_BOUND
    ensures ParseU64(Decimal(n)) == Some(n)
  {
    DecimalValue(n);
  }

  /** Different numbers format differently. */
  lemma DecimalInjective(m: nat, n: nat)
    requires Decimal(m) == Decimal(n)
    ensures m == n
  {
    DecimalValue(m);
    DecimalValue(n);
  }

  /** `{:02}`: the decimal digits, padded with a leading zero to at least two characters. */
  function Pad2(n: nat): (s: string)
    ensures |s| >= 2 && AllDigits(s)
  {
    var d := Decimal(n);
    if |d| < 2 then "0" + d else d
  }

  /** Zero-padding keeps the value and pads only single digits. */
  lemma Pad2Value(n: nat)
    ensures DigitsValue(Pad2(n)) == n
    ensures n >= 10 ==> Pad2(n) == Decimal(n)
    ensures |Pad2(n)| == 2 <==> n < 100
  {
    DecimalValue(n);
    var d := Decimal(n);
    if n < 10 {
      assert Pad2(n)[..1] == "0";
    } else {
      DecimalLength(n);
    }
  }

  /** Numbers from 10 have at least two digits, and numbers from 100 at least three. */
  lemma {:induction false} DecimalLength(n: nat)
    ensures n >= 10 <==> |Decimal(n)| >= 2
    ensures n >= 100 <==> |Decimal(n)| >= 3
  {
    if n >= 10 {
      DecimalLength(n / 10);
    }
  }

  // ---------------------------------------------------------------------------
  // Lexicographic order
  // ---------------------------------------------------------------------------

  /** The order of strings by code point, a proper prefix coming first. */
  predicate LexLe(a: string, b: string)
  {
    if |a| == 0 then true
    else if |b| == 0 then false
    else if a[0] != b[0] then a[0] < b[0]
    else LexLe(a[1..], b[1..])
  }

  /** Any two strings are ordered one way or the other. */
  lemma {:induction false} LexLeTotal(a: string, b: string)
    ensures LexLe(a, b) || LexLe(b, a)
  {
    if |a| > 0 && |b| > 0 && a[0] == b[0] {
      LexLeTotal(a[1..], b[1..]);
    }
  }

  /** Strings ordered both ways are equal. */
  lemma {:induction false} LexLeAntisymmetric(a: string, b: string)
    requires LexLe(a, b) && LexLe(b, a)
    ensures a == b
  {
    if |a| > 0 && |b| > 0 {
      LexLeAntisymmetric(a[1..], b[1..]);
      assert a == [a[0]] + a[1..] && b == [b[0]] + b[1..];
    }
  }
}

=== FILE: wrappers.dfy ===
/** The optional value the model uses wherever the source has Rust's `Option`. */
module Wrappers {

  datatype Option<+T> = None | Some(value: T)
}
